=== FILE: README.md ===
# MLDeform in Dafny

MLDeform approximates a complex deformation rig with one small neural network
per joint. The pipeline has four stages. Each stage wraps a small amount of
pure logic around Maya and TensorFlow calls, and this project models that
logic and proves properties of it:

1. **Weight simplification** (`skinning.py`). A skin cluster's weights are a
   flat table with `stride` influences per vertex. They are rewritten so that
   every vertex follows exactly one influence:
   - the fast strategy keeps each vertex's heaviest influence;
   - the exhaustive strategy keeps the influence whose single-influence pose
     stays closest to the target over a stepped frame range.

   `get_joints` reduces a joint list to its roots.
2. **Training data** (`writer.py`). The simplified table is split into:
   - `joint_map`: for each influence, the increasing list of vertices it owns;
   - `weight_map`: the owning influence of each owned vertex.

   For each joint, one CSV row is written per frame: rotation quaternion,
   world translation, then the target-minus-driven displacement of each owned
   vertex. The file also gets a header that matches the row, and a file name
   derived from the joint path.
3. **Training** (`train.py`). Each CSV is de-duplicated on the joint columns
   and split into inputs (rotation, translation) and outputs (vertex columns).
   Translation and vertex columns are min–max normalised when requested. A
   network plan is produced, and every CSV yields exactly one entry of the
   `models` list, which is `None` when the CSV cannot be trained on.
4. **Runtime deformer** (`deformer.py`). `loadModels` pairs model slot `i`
   with `joint_map[i]`. `deform` then:
   - normalises each used joint's translation;
   - asks the network for a prediction and denormalises it;
   - scatters the prediction into a `3 * numVertices` delta array;
   - moves each vertex by its delta times the envelope times its painted
     weight.

## Modules

| file | module | contents |
|---|---|---|
| `common.dfy` | `Common` | `Option`, `Result`, `Vec3`, `Quat`, Python's `range`, decimal rendering of integers, subsequences |
| `strided.dfy` | `Strided` | flat strided tables and their rows, one-hot rows, first arg-max and first arg-min |
| `skinning.dfy` | `Skinning` | `get_joints`, the two simplification strategies, and the two code readings listed under Findings |
| `writer.dfy` | `Writer` | `joint_map` and `weight_map`, frame rows, header, CSV file names, the pure part of `write` |
| `train.dfy` | `Train` | `get_model`'s layer plan, `drop_duplicates`, `normalize_features`, the per-CSV loop of `train` |
| `arrays.dfy` | `Arrays` | one-dimensional numpy arithmetic with broadcasting, clamped slices, slice assignment, `nan_to_num` of a quotient |
| `deformer.dfy` | `Deformer` | `loadModels`, `normalize_transform`, `denormalize_prediction`, the delta scatter and vertex offsets of `deform` |

Host queries become parameters, as follows:
- where Maya puts a vertex under a weighting at a frame;
- the target mesh points;
- joint rotations and translations;
- the network's prediction for a joint's input row.

Array cells are mathematical reals.

## Behaviour as coded

Three behaviours of the code a reader might not expect:
- **Exhaustive candidates.** The exhaustive strategy considers every influence
  `0 .. stride-1` for every vertex, including influences that gave the vertex
  no weight in the bound skin (`MLDeform/_maya/skinning.py:255`).
- **Displacements.** A displacement is the object-space difference
  `target point - driven point`, as `getPoints()` returns the points with no
  space argument (`MLDeform/_maya/writer.py:99-100`). It is not expressed in
  the joint's space (`MLDeform/_maya/writer.py:113`). Only the joint rotation
  and translation are read in world space.
- **Constant translation column.**
  - Training maps a constant translation column to 0, because `fillna(0)`
    turns 0/0 into 0.
  - The runtime `normalize_transform` maps it to 0 only when the incoming
    value equals the stored constant. Otherwise it yields ±`sys.float_info.max`,
    because `nan_to_num` turns ±inf into the largest finite double.
  - `Deformer.NormalizeTransformConstantColumn` states both results.

## Model

| member | source | states |
|---|---|---|
| Skinning.Breaks | MLDeform/_maya/skinning.py:98-103 | the inner loop breaks exactly when some other, distinct entry is a string prefix of the joint |
| Skinning.KeepRootsSpec | MLDeform/_maya/skinning.py:97-107 | the filtered list is an order-preserving subsequence, and keeps every occurrence of a root and none of a non-root |
| Skinning.GetJointsKeepsRoots | MLDeform/_maya/skinning.py:85-107 | `get_joints` returns a subsequence of its input; a joint is kept iff no other distinct entry is a prefix of it, with multiplicities preserved |
| Skinning.KeepRootsKeepsAll | MLDeform/_maya/skinning.py:97-107 | a list made only of roots passes the filter unchanged |
| Skinning.GetJointsIdempotent | MLDeform/_maya/skinning.py:85-107 | filtering the roots again changes nothing |
| Skinning.SimplifyWeightsFast | MLDeform/_maya/skinning.py:179-197 | fast mode fails exactly when a vertex has no influences (`max` of an empty row); otherwise the table keeps its length |
| Skinning.FastRowsFlatten | MLDeform/_maya/skinning.py:189-195 | the rewritten rows, laid back out flat, put row `v` at `v * stride` |
| Skinning.FastRowsAreOneHot | MLDeform/_maya/skinning.py:189-195 | each output row has 1.0 exactly at the first maximum of the original row, and sums to 1 |
| Skinning.FastRowIsLocal | MLDeform/_maya/skinning.py:190-195 | a vertex's new row depends only on its own slice of the input |
| Skinning.OneHotFirstMax | MLDeform/_maya/skinning.py:191 | in a one-hot row, the first maximum is the hot position |
| Skinning.FastIdempotent | MLDeform/_maya/skinning.py:189-195 | a table that is already one-hot is returned unchanged |
| Skinning.FastOutputIsOneHot | MLDeform/_maya/skinning.py:189-195 | every row of the fast output is one-hot |
| Skinning.FastRowOneHot | MLDeform/_maya/skinning.py:189-195 | row `v` of the fast output is the one-hot row at the first maximum of the input row |
| Skinning.FastTwiceIsFastOnce | MLDeform/_maya/skinning.py:179-197 | running fast mode on its own output gives the same table |
| Strided.OneHot | MLDeform/_maya/skinning.py:240-242 | `preweights[i]` has length `stride`, with 1.0 at `i` and 0 elsewhere |
| Strided.OneHotSumsToOne | MLDeform/_maya/skinning.py:240-242 | a one-hot row sums to 1, and its only 1.0 is at the hot position |
| Strided.FirstMaxUnique | MLDeform/_maya/skinning.py:191 | Python's `max` with a key keeps the first maximum, which is unique |
| Strided.FirstMinUnique | MLDeform/_maya/skinning.py:273 | Python's `min` with a key keeps the first minimum, which is unique |
| Strided.FlattenRows | MLDeform/_maya/skinning.py:190-195 | cutting a strided table into rows and laying the rows back out gives the table |
| Strided.RowsOfFlatten | MLDeform/_maya/skinning.py:190-195 | laying rows out and cutting the result again gives the rows back |
| Skinning.DistanceSumNonNegative | MLDeform/_maya/skinning.py:245-269 | the accumulated distance of a vertex and influence is never negative |
| Skinning.AccumulateDeltas | MLDeform/_maya/skinning.py:235-269 | `deltas[vtx][i]` is the sum, over the sampled frames, of the distance between the influence-`i`-only point and the reference point |
| Skinning.SelectRows | MLDeform/_maya/skinning.py:271-274 | each vertex row of the written table is the one-hot row of its chosen influence |
| Skinning.SimplifyWeightsExhaustive | MLDeform/_maya/skinning.py:200-277 | fails on a target with a different vertex count, on a zero step and on a vertex without influences; otherwise each row is one-hot at the first minimum of that vertex's accumulated distances |
| Skinning.PerfectInfluenceIsChosen | MLDeform/_maya/skinning.py:245-273 | if influence `j` reproduces the target on every sampled frame, the chosen influence has total 0 and is `j` or an earlier one |
| Skinning.PerfectSumIsZero | MLDeform/_maya/skinning.py:255-269 | an influence that lands on the target on every frame accumulates 0 |
| Skinning.DrivingMeshReadPicksWrongInfluence | MLDeform/_maya/skinning.py:250-273 | reading the reference points from the driving mesh picks influence 1 where the target says influence 0 |
| Skinning.SliceWriteGrowsTable | MLDeform/_maya/skinning.py:271-274 | assigning `preweights[idx] * numVerts` to a one-row slice grows a two-entry table to four |
| Common.PyRangeValues | MLDeform/_maya/skinning.py:245 | `range(start, stop, step)` yields `start + k * step` for each `k`, all short of `stop`, and the next step reaches it |
| Writer.FirstPositive | MLDeform/_maya/writer.py:82-87 | the first strictly positive weight of a row, or none when every weight is at most 0 |
| Writer.ScanFirstPositive | MLDeform/_maya/writer.py:83-87 | the scan that stops at the first positive weight finds exactly that position |
| Writer.BuildMaps | MLDeform/_maya/writer.py:76-87 | `joint_map` has `stride` lists; vertex `v` is in list `i` iff `i` is its first positively weighted influence; lists increase; `weight_map` holds those owners in vertex order |
| Writer.JointListMembership | MLDeform/_maya/writer.py:81-86 | list `i` holds exactly the vertices owned by influence `i`, increasing |
| Writer.OwnerInRange | MLDeform/_maya/writer.py:82-85 | an owner is always a valid influence index |
| Writer.OwnersMatchWeightedVertices | MLDeform/_maya/writer.py:81-87 | `weight_map` has one entry per vertex with some positive weight, and entry `n` is the owner of the `n`-th such vertex |
| Writer.WeightedVerticesMembership | MLDeform/_maya/writer.py:81-87 | exactly the vertices with a positive weight are owned, in increasing order |
| Writer.Displacements | MLDeform/_maya/writer.py:109-114 | three values per listed vertex: the target point minus the driven point, in list order |
| Writer.FrameRow | MLDeform/_maya/writer.py:102-116 | a row is 4 rotation values, 3 translation values, then the listed vertices' displacements |
| Writer.JointRowsShape | MLDeform/_maya/writer.py:95-116 | a joint gets `end - start + 1` rows; row `n` is frame `start + n`, with width `7 + 3 * len(verts)` |
| Writer.VertexColumns | MLDeform/_maya/writer.py:129-130 | three `vtx<v>x/y/z` names per listed vertex, in list order |
| Writer.Header | MLDeform/_maya/writer.py:127-130 | the seven input fields, then the vertex columns |
| Writer.HeaderMatchesRow | MLDeform/_maya/writer.py:102-130 | the header is as wide as a row, and each displacement sits under its own vertex's column |
| Writer.HeaderColumnsDistinct | MLDeform/_maya/writer.py:127-130 | over an increasing vertex list, no header name repeats |
| Writer.ReplaceBars | MLDeform/_maya/writer.py:122 | `replace('|', '_')` keeps length and changes only bars |
| Writer.CsvFileName | MLDeform/_maya/writer.py:122-124 | a file name always ends in `.csv` |
| Writer.CsvFileNameShape | MLDeform/_maya/writer.py:122-124 | exactly one leading `_`, produced or original, is stripped |
| Writer.CsvFileNameInjective | MLDeform/_maya/writer.py:122-124 | distinct absolute joint paths without underscores get distinct file names |
| Writer.CsvFileNameCollision | MLDeform/_maya/writer.py:122-124 | `|a_b` and `|a|b` share a file name, so the injectivity condition is needed |
| Writer.Write | MLDeform/_maya/writer.py:68-147 | fails with IndexError exactly when there are more joints than influences, or, when the frame range is not empty, fewer joints than influences or an owned vertex beyond the target mesh's points (`target_points[vtx]`, with no vertex-count check); otherwise one file per joint in joint order, with named header and frame rows, and map data holding the joint map, weight map and file names |
| Train.LayerCount | MLDeform/_training/train.py:41-43 | at least two layers, and exactly the request when it is two or more |
| Train.GetModel | MLDeform/_training/train.py:28-68 | `input_node` reads the joint columns; the last layer is linear and emits the vertex columns; middle layers are `dense_layer_<n>`; the input tensor is `input_node_input:0` |
| Train.LayerNamesDistinct | MLDeform/_training/train.py:47-64 | all layer names in a plan are distinct |
| Train.DropDuplicates | MLDeform/_training/train.py:141 | kept rows are at most the input rows and each is one of them |
| Train.DropDuplicatesKeepsFirst | MLDeform/_training/train.py:141 | `keep='first'`: every kept row is the first row with its joint-column values, and every such first row is kept |
| Train.DropDuplicatesKeepsOrder | MLDeform/_training/train.py:141-147 | the kept rows are an order-preserving subsequence; the discarded shuffle does not reorder them |
| Train.DropDuplicatesDistinctKeys | MLDeform/_training/train.py:141 | no two kept rows share joint-column values |
| Train.DropDuplicatesCoversKeys | MLDeform/_training/train.py:141 | every joint-column key of the input survives in some kept row |
| Train.DropDuplicatesEmpty | MLDeform/_training/train.py:141-142 | nothing is kept iff there were no rows |
| Train.DropDuplicatesIdempotent | MLDeform/_training/train.py:141 | de-duplicating again changes nothing |
| Train.DistinctKeysKept | MLDeform/_training/train.py:141 | a table whose keys are already distinct is kept whole |
| Train.MaxOf | MLDeform/_training/train.py:98 | a column's maximum is one of its cells and bounds every cell |
| Train.MinOf | MLDeform/_training/train.py:99 | a column's minimum is one of its cells and bounds every cell |
| Train.NormalizeCellRange | MLDeform/_training/train.py:100-101 | a cell within its extremes maps into [0, 1], with min to 0 and max to 1 when they differ |
| Train.NormalizeFeatures | MLDeform/_training/train.py:91-102 | per-column extremes are attained cells that bound the column; the table keeps its shape and each cell is the min–max image of the original |
| Train.NormalizedInUnitRange | MLDeform/_training/train.py:91-102 | every normalised cell lies in [0, 1] |
| Train.RotationWidth | MLDeform/_training/train.py:152-153 | the rotation columns are all but the last three joint columns |
| Train.TrainCsvOutcome | MLDeform/_training/train.py:141-144 | a CSV raises KeyError exactly when it has fewer columns than there are joint columns, raises ValueError exactly when there are no joint columns and the CSV has rows, and otherwise yields `None` exactly when it has no rows or no vertex column |
| Train.TrainCsvColumns | MLDeform/_training/train.py:148-171 | the entry has the joint columns as inputs and the rest as outputs, copies the rotation columns, and sizes the network to both |
| Train.TrainCsvRaw | MLDeform/_training/train.py:148-163 | without normalisation, each input row followed by its output row is the kept row, and no extremes are stored |
| Train.TrainCsvNormalizedInputs | MLDeform/_training/train.py:152-163 | with normalisation, each translation input is the min–max image of its cell under the stored extremes, in [0, 1] |
| Train.TrainCsvNormalizedOutputs | MLDeform/_training/train.py:149-159 | with normalisation, each vertex output is the min–max image of its cell under the stored extremes, which bound the cell, in [0, 1] |
| Train.TrainAllFailure | MLDeform/_training/train.py:131-144 | training raises iff some CSV has fewer columns than there are joint columns, or there are no joint columns and some CSV has rows |
| Train.TrainAllAligned | MLDeform/_training/train.py:131-208 | one `models` entry per CSV, in order, each that CSV's outcome |
| Arrays.DivFinite | MLDeform/_maya/deformer.py:92-93 | `nan_to_num` of a quotient: an exact quotient for a non-zero divisor, 0 for 0/0, and ±largest double for x/0 |
| Arrays.Broadcast | MLDeform/_maya/deformer.py:92-107 | element-wise arithmetic succeeds iff the lengths broadcast, and applies the operator cell by cell, stretching a length-1 operand |
| Arrays.Slice | MLDeform/_maya/deformer.py:90 | a clamped slice has the clamped length and reads the cells from `lo` on |
| Arrays.AssignSlice | MLDeform/_maya/deformer.py:95 | slice assignment succeeds iff the source fits or has length 1; it writes only inside the slice |
| Deformer.LoadEntry | MLDeform/_maya/deformer.py:231-235 | a loaded model keeps its vertex list and the stored extremes when it was normalised, and none otherwise |
| Deformer.LoadModels | MLDeform/_maya/deformer.py:213-228 | without a `models` key, the model list is empty and nothing is raised |
| Deformer.LoadSlotsError | MLDeform/_maya/deformer.py:231-235 | loading raises iff a non-empty entry has no `joint_map` row, and the error is an index error |
| Deformer.LoadSlotsAligned | MLDeform/_maya/deformer.py:231-235 | after a clean load, slot `i` is empty for an empty entry and otherwise the entry loaded with `joint_map[i]` |
| Deformer.LoadSlotsStops | MLDeform/_maya/deformer.py:231-235 | an index error stops loading at the first entry without a `joint_map` row, leaving the earlier slots in place |
| Deformer.NormalizeTransformKeepsRotation | MLDeform/_maya/deformer.py:88-96 | normalising a transform never changes the values before the last three |
| Deformer.NormalizeTransformCells | MLDeform/_maya/deformer.py:88-96 | with three stored extremes, each translation value becomes `nan_to_num((t - min) / (max - min))` |
| Deformer.NormalizeTransformMatchesTraining | MLDeform/_maya/deformer.py:88-96 | for a non-constant column, the runtime normalisation of a translation value is the training normalisation `normalize_features` applies to that column |
| Deformer.NormalizeTransformConstantColumn | MLDeform/_maya/deformer.py:92-93 | for a constant column, training gives 0 while the runtime gives 0 only on the stored value and ±largest double otherwise |
| Deformer.DenormalizeCells | MLDeform/_maya/deformer.py:104-109 | each prediction cell becomes `p * (max - min) + min` |
| Deformer.DenormalizeCellInverts | MLDeform/_maya/deformer.py:107 | denormalising a normalised cell within its extremes gives the cell back |
| Deformer.DenormalizeInvertsNormalize | MLDeform/_maya/deformer.py:104-109 | over a row, denormalisation inverts the min–max normalisation of training |
| Deformer.DenormalizeTrainingRow | MLDeform/_maya/deformer.py:98-109 | denormalising a normalised training output row with the loaded model gives the original vertex columns of that row |
| Deformer.AssignTripleWrites | MLDeform/_maya/deformer.py:181 | writing a vertex's triple puts `prediction[3k .. 3k+3]` at `deltas[3v .. 3v+3]` |
| Deformer.AssignTripleKeeps | MLDeform/_maya/deformer.py:181 | writing a vertex's triple leaves every other vertex's cells alone |
| Deformer.LastAtIsLast | MLDeform/_maya/deformer.py:180-181 | the found position is the last occurrence of the vertex in the list, and there is one iff it is listed |
| Deformer.ScatterSucceeds | MLDeform/_maya/deformer.py:180-181 | the scatter cannot fail when every listed vertex is in the mesh and the prediction is long enough |
| Deformer.ScatterKeeps | MLDeform/_maya/deformer.py:180-181 | cells of unlisted vertices are untouched by a model's scatter |
| Deformer.ScatterWrites | MLDeform/_maya/deformer.py:180-181 | a listed vertex ends up with the triple of its last position in the list |
| Deformer.DeltasAfter | MLDeform/_maya/deformer.py:132-181 | the delta array always has `3 * numVertices` cells |
| Deformer.DeltasIgnoreUnused | MLDeform/_maya/deformer.py:134-142 | matrices without a model are never read |
| Deformer.DeltasExtraMatrices | MLDeform/_maya/deformer.py:135-137 | matrices beyond the model list contribute nothing |
| Deformer.DeltasUnlistedZero | MLDeform/_maya/deformer.py:132-181 | a vertex listed by no used model keeps a zero delta |
| Deformer.DeltasKeptAfter | MLDeform/_maya/deformer.py:134-181 | models that do not list a vertex leave its delta as it was |
| Deformer.DeltasLastWriter | MLDeform/_maya/deformer.py:134-181 | a vertex's delta is the prediction of the last used model listing it, at that vertex's last list position |
| Deformer.ApplyDeltas | MLDeform/_maya/deformer.py:184-196 | each vertex moves by its delta scaled by the envelope and its painted weight |
| Deformer.ApplyDeltasInPlace | MLDeform/_maya/deformer.py:189-194 | with a zero envelope, weight or delta, the vertex stays put |
| Deformer.Deform | MLDeform/_maya/deformer.py:132-196 | a successful deformation returns one position per vertex |
| Deformer.DeformUnlistedStays | MLDeform/_maya/deformer.py:132-196 | a vertex listed by no used model keeps its position |

## Left out

Left out entirely:
- **Maya scene access.** Mesh points, skin-cluster weights, `setWeights`,
  `currentTime`, skinning, cloning and selection lists are host I/O. Their
  results are inputs to the model.
- **Node machinery.** Plugin registration, attribute setup,
  `preEvaluation`/`setDependentsDirty` and the `location_changed` reload flag
  are host callbacks.
- **Learning and inference.** Network construction, fitting, the optimiser,
  checkpoint save/restore and `session.run` run in foreign libraries. A
  prediction is the parameter `predict(i, values)`.
- **File work.** JSON and CSV reading and writing, directory creation, output
  paths and plotting are file I/O.
- **`MLDeform/__init__.py`.** It is package-path setup that depends on the
  environment.
- **The `test_*` functions.** They use hard-coded scene files.
- **Logging.**

Modelled differently from the source:
- **Numbers.**
  - IEEE floating point is not modelled: cells are reals.
  - The Euclidean `math.sqrt` distance is an abstract non-negative `dist`.
  - `floor`/`ceil` of the frame range is replaced by integer bounds.
  - `nan_to_num` appears only where a division can produce NaN or infinity
    (`Arrays.DivFinite`). `denormalize_prediction`'s `nan_to_num` has no
    effect over reals.
- **Keras `input_dim` on hidden layers.** It is recorded as written. Keras
  ignores it on non-first layers, and the model does not state that.
- **`model.output.name`.** The output node name comes from TensorFlow and is
  not modelled.
- Train.TrainCsv: columns are positional, and the first `k` columns are
  taken to be the joint columns, as `write` lays them out
  (`MLDeform/_maya/writer.py:127-130`). pandas raises KeyError when a named
  joint column is absent from the header. The model raises only when a CSV
  has fewer than `k` columns, so a CSV that is wide enough but lacks one of
  the named fields succeeds here.
- Train.TrainCsvOutcome: inherits the positional reading of KeyError
  described for `Train.TrainCsv`.
- Train.TrainAllFailure: inherits the positional reading of KeyError
  described for `Train.TrainCsv`.
- **Joint identity in `write`.** Joints are matched to influences by
  position, assuming distinct joint paths (`Writer.Write` requires
  `Distinct`). The source keys `frame_data` by name and uses
  `joints.index(joint)`, which agree with position only under that
  assumption. In the source, `joints` and the influence count both come
  from `skin_cluster.influenceObjects()` (`MLDeform/_maya/writer.py:69-73`),
  so they always have the same length. Of the failure cases `Writer.Write`
  states, only an owned vertex beyond the target mesh's points can occur
  there; the two length-mismatch cases cover callers that pass other lists.
- **Empty key set in `drop_duplicates`.** With `k == 0` joint columns,
  `MLDeform/_training/train.py:141` passes an empty list, not `None`.
  pandas then finds no key columns to unpack and raises ValueError on a
  frame that has rows, and `Train.TrainCsv` fails with `ValueError` in that
  case. On a CSV with no rows, pandas releases differ: some return early on
  an empty frame and some raise. The model does not raise there. Because of
  that difference, the model's KeyError for a missing joint column does not
  depend on whether the CSV has rows.
- **Missing columns in `normalize_features`.** On a frame with no columns, or
  with only NaN cells, the result is not modelled; `Train.NormalizeFeatures`
  requires at least one row.
- **`loadModels` path handling.** Its `path == self.data_location` early
  return and its missing-file log are not modelled. `LoadModels` starts from
  the parsed `models` list.
- **`deform`'s iterator.** It is assumed to visit every vertex of the mesh
  once, in index order.
- **Deformer input values.** A matrix's seven transform values are an input
  sequence. Decomposing an `MMatrix` into a quaternion and a translation is
  host code.
- Deformer.Deform: states only the number of positions. The cell contents
  are stated by `Deformer.DeformUnlistedStays` and `Deformer.ApplyDeltas`.
  When a model lists a vertex beyond the mesh or predicts too few values,
  numpy's slice assignment fails and `Deform` returns that failure. No lemma
  gives the exact condition; `Deformer.ScatterSucceeds` gives a sufficient one.
- Deformer.DeltasAfter: states only the array length. The cell contents are
  stated by `Deformer.DeltasUnlistedZero`, `Deformer.DeltasKeptAfter` and
  `Deformer.DeltasLastWriter`.

## Findings

| source | as written | input that shows it | evidently intended | confidence | as-written member | corrected member |
|---|---|---|---|---|---|---|
| MLDeform/_maya/skinning.py:274 | each vertex's `stride`-long slice is replaced by `preweights[idx] * numVerts`, a list `stride * numVerts` long, so the weight table grows with every vertex | two vertices, one influence, both choosing it: the table of two weights becomes four | write the one-hot row `preweights[idx]` into the vertex's slice, keeping the table's length (the docstring at lines 202-203) | high, not executed | Skinning.SliceWriteGrowsTable | Skinning.SimplifyWeightsExhaustive |
| MLDeform/_maya/skinning.py:252 | the per-frame reference points are read from `mesh`, the driving mesh, instead of `target` | a separate target at the origin, influence 0 on it, influence 1 ten units off, the bound weighting one unit off, frames 0 and 1: the driving-mesh totals are 11 and 9, so influence 1 is chosen | compare each single-influence pose with the target mesh's points, as the docstring and the `target` parameter describe | medium, not executed | Skinning.DrivingMeshReadPicksWrongInfluence | Skinning.PerfectInfluenceIsChosen |

=== FILE: arrays.dfy ===
/**
 The part of numpy's one-dimensional array semantics that the deformer relies
 on: element-wise arithmetic with broadcasting, slices whose bounds are
 clamped to the array, slice assignment, and `nan_to_num` after a division.
 Array cells are reals; the only non-finite values the modelled code can
 produce come from dividing by zero, and `DivFinite` maps those the way
 `nan_to_num` does.
 */
module Arrays {
  import opened Common

  /** The Python exceptions the modelled array code can raise. */
  datatype PyError =
    | ValueError   // operands or a slice assignment whose shapes do not broadcast
    | IndexError   // a list index past the end
    | TypeError    // arithmetic on a stored `None`

  /** The largest finite double, `sys.float_info.max` = (2 - 2^-52) * 2^1023. */
  const MaxFloat: real := 179769313486231570814527423731704356798070567525844996598917476803157260780028538760589558632766878171540458953514382464234321326889464182768467546703537516986049910576551282076245490090389328944075868508455133942304583236903222948165808559332123348274797826204144723168738177180919299881250404026184124858368.0

  /**
   One cell of `np.nan_to_num(num / den)`: a non-zero denominator divides;
   0/0 is NaN and becomes 0; a non-zero numerator over 0 is an infinity and
   becomes the largest finite double of the same sign.
   */
  function DivFinite(num: real, den: real): (q: real)
    ensures den != 0.0 ==> q * den == num
    ensures den == 0.0 ==> (q == 0.0 <==> num == 0.0)
    ensures den == 0.0 && num != 0.0 ==> (q == MaxFloat || q == -MaxFloat) && (q > 0.0 <==> num > 0.0)
  {
    if den != 0.0 then num / den
    else if num == 0.0 then 0.0
    else if num > 0.0 then MaxFloat
    else -MaxFloat
  }

  /** The element-wise operators the deformer applies to arrays. */
  datatype Op = Add | Sub | Mul | Div

  function Apply(op: Op, x: real, y: real): real {
    match op
    case Add => x + y
    case Sub => x - y
    case Mul => x * y
    case Div => DivFinite(x, y)
  }

  /** numpy's rule for two one-dimensional operands: equal lengths, or one of them has length 1. */
  predicate Broadcastable(n: nat, m: nat) {
    n == m || n == 1 || m == 1
  }

  /** `a op b` element-wise, stretching an operand of length 1 over the other. */
  function Broadcast(op: Op, a: seq<real>, b: seq<real>): (r: Result<seq<real>, PyError>)
    ensures r.Success? <==> Broadcastable(|a|, |b|)
    ensures r.Failure? ==> r.error == ValueError
    ensures r.Success? ==> |r.value| == if |a| == 1 then |b| else |a|
    ensures r.Success? && |a| == |b| ==> forall i :: 0 <= i < |a| ==> r.value[i] == Apply(op, a[i], b[i])
    ensures r.Success? && |a| == 1 ==> forall i :: 0 <= i < |b| ==> r.value[i] == Apply(op, a[0], b[i])
    ensures r.Success? && |b| == 1 ==> forall i :: 0 <= i < |a| ==> r.value[i] == Apply(op, a[i], b[0])
  {
    if !Broadcastable(|a|, |b|) then Failure(ValueError)
    else
      var n := if |a| == 1 then |b| else |a|;
      Success(seq(n, i requires 0 <= i < n =>
        Apply(op, a[if |a| == 1 then 0 else i], b[if |b| == 1 then 0 else i])))
  }

  function Min(a: nat, b: nat): nat {
    if a <= b then a else b
  }

  /** Where `s[lo:hi]` starts once `lo` is clamped to the array. */
  function SliceStart(n: nat, lo: nat): nat {
    Min(lo, n)
  }

  /** Where `s[lo:hi]` stops: `hi` clamped to the array, and never before the start. */
  function SliceStop(n: nat, lo: nat, hi: nat): (stop: nat)
    ensures SliceStart(n, lo) <= stop <= n
  {
    if Min(hi, n) < Min(lo, n) then Min(lo, n) else Min(hi, n)
  }

  /** `s[lo:hi]` for non-negative bounds. */
  function Slice(s: seq<real>, lo: nat, hi: nat): (r: seq<real>)
    ensures |r| == SliceStop(|s|, lo, hi) - SliceStart(|s|, lo)
    ensures forall i :: 0 <= i < |r| ==> r[i] == s[lo + i]
    ensures lo <= hi <= |s| ==> r == s[lo..hi]
  {
    s[SliceStart(|s|, lo)..SliceStop(|s|, lo, hi)]
  }

  /** The start of `s[-k:]`: the last `k` entries, or all of them when there are fewer. */
  function TailStart(n: nat, k: nat): (start: nat)
    ensures start <= n
    ensures n >= k ==> n - start == k
  {
    if n >= k then n - k else 0
  }

  /**
   `s[lo:hi] = src`: the source must have the slice's length, or length 1,
   in which case its one value is written everywhere in the slice.
   */
  function AssignSlice(s: seq<real>, lo: nat, hi: nat, src: seq<real>): (r: Result<seq<real>, PyError>)
    ensures var a, b := SliceStart(|s|, lo), SliceStop(|s|, lo, hi);
            && (r.Success? <==> |src| == b - a || |src| == 1)
            && (r.Failure? ==> r.error == ValueError)
            && (r.Success? ==> |r.value| == |s|)
            && (r.Success? ==> forall j :: 0 <= j < |s| && !(a <= j < b) ==> r.value[j] == s[j])
            && (r.Success? ==> forall j :: a <= j < b ==> r.value[j] == if |src| == b - a then src[j - a] else src[0])
  {
    var a, b := SliceStart(|s|, lo), SliceStop(|s|, lo, hi);
    if |src| != b - a && |src| != 1 then Failure(ValueError)
    else
      Success(seq(|s|, j requires 0 <= j < |s| =>
        if a <= j < b then (if |src| == b - a then src[j - a] else src[0]) else s[j]))
  }
}

=== FILE: common.dfy ===
/**
 Shared vocabulary for the MLDeform model: failure-carrying wrappers, the
 small geometric records the host hands over, Python's `range`, decimal
 rendering of vertex indices, and the subsequence relation used to state
 that a filter keeps order.
 */
module Common {

  datatype Option<+T> = None | Some(value: T)

  datatype Result<+R, +E> = Success(value: R) | Failure(error: E)

  /** A point or vector as the host returns it (MPoint / MVector). */
  datatype Vec3 = Vec3(x: real, y: real, z: real) {
    /** Component-wise difference `this - other`, as MPoint subtraction. */
    function Minus(other: Vec3): Vec3 {
      Vec3(x - other.x, y - other.y, z - other.z)
    }

    /** The three components in x, y, z order, as `data += vector` appends them. */
    function Components(): seq<real> {
      [x, y, z]
    }
  }

  /** A rotation quaternion in the order the host iterates it: x, y, z, w. */
  datatype Quat = Quat(x: real, y: real, z: real, w: real) {
    function Components(): seq<real> {
      [x, y, z, w]
    }
  }

  /**
   The values of Python's `range(start, stop, step)`. A zero step raises in
   Python, so callers turn that case into an error before asking for the
   values.
   */
  function PyRange(start: int, stop: int, step: int): (r: seq<int>)
    requires step != 0
    ensures |r| > 0 ==> r[0] == start
    decreases if step > 0 then stop - start else start - stop
  {
    if (step > 0 && start < stop) || (step < 0 && start > stop) then
      [start] + PyRange(start + step, stop, step)
    else
      []
  }

  lemma MulDistributes(a: int, b: int, c: int)
    ensures (a + b) * c == a * c + b * c
  {
  }

  /**
   The range is pinned down completely: element k is `start + k * step`,
   every element is still inside the bound, and the value one step past the
   last one is not.
   */
  lemma {:induction false} PyRangeValues(start: int, stop: int, step: int)
    requires step != 0
    ensures forall k :: 0 <= k < |PyRange(start, stop, step)| ==> PyRange(start, stop, step)[k] == start + k * step
    ensures forall k :: 0 <= k < |PyRange(start, stop, step)| ==>
              if step > 0 then PyRange(start, stop, step)[k] < stop else PyRange(start, stop, step)[k] > stop
    ensures if step > 0 then start + |PyRange(start, stop, step)| * step >= stop
            else start + |PyRange(start, stop, step)| * step <= stop
    decreases if step > 0 then stop - start else start - stop
  {
    var r := PyRange(start, stop, step);
    if (step > 0 && start < stop) || (step < 0 && start > stop) {
      var rest := PyRange(start + step, stop, step);
      PyRangeValues(start + step, stop, step);
      assert r == [start] + rest;
      forall k | 1 <= k < |r|
        ensures r[k] == start + k * step
      {
        MulDistributes(1, k - 1, step);
      }
      MulDistributes(1, |rest|, step);
    }
  }

  /** With a unit step, `range(start, stop)` has `stop - start` values, or none. */
  lemma UnitRangeLength(start: int, stop: int)
    ensures |PyRange(start, stop, 1)| == if start < stop then stop - start else 0
    ensures forall k :: 0 <= k < |PyRange(start, stop, 1)| ==> PyRange(start, stop, 1)[k] == start + k
  {
    PyRangeValues(start, stop, 1);
    var r := PyRange(start, stop, 1);
    if |r| > 0 {
      assert r[|r| - 1] == start + (|r| - 1);
    }
  }

  /** One decimal digit. */
  function DigitChar(d: nat): (c: char)
    requires d < 10
    ensures '0' <= c <= '9'
    ensures c as int - '0' as int == d
  {
    ('0' as int + d) as char
  }

  predicate AllDigits(s: string) {
    forall i :: 0 <= i < |s| ==> '0' <= s[i] <= '9'
  }

  /** Python's `str(n)` for a non-negative int: decimal, no leading zeros. */
  function NatToString(n: nat): (s: string)
    ensures |s| > 0
    ensures AllDigits(s)
    ensures |s| > 1 ==> s[0] != '0'
    decreases n
  {
    if n < 10 then [DigitChar(n)] else NatToString(n / 10) + [DigitChar(n % 10)]
  }

  /** Reads a decimal digit string back as a number. */
  function ParseNat(s: string): nat
    requires AllDigits(s)
  {
    if |s| == 0 then 0 else ParseNat(s[..|s| - 1]) * 10 + (s[|s| - 1] as int - '0' as int)
  }

  /** Decimal rendering loses nothing: parsing it gives the number back. */
  lemma {:induction false} ParseNatToString(n: nat)
    ensures ParseNat(NatToString(n)) == n
    decreases n
  {
    if n >= 10 {
      var s := NatToString(n);
      assert s[..|s| - 1] == NatToString(n / 10);
      ParseNatToString(n / 10);
    }
  }

  /** Distinct vertex indices get distinct decimal names. */
  lemma NatToStringInjective(a: nat, b: nat)
    ensures NatToString(a) == NatToString(b) ==> a == b
  {
    ParseNatToString(a);
    ParseNatToString(b);
  }

  /** `xs` can be obtained from `ys` by deleting elements, keeping order. */
  ghost predicate IsSubsequence<T>(xs: seq<T>, ys: seq<T>)
    decreases |ys|
  {
    if xs == [] then true
    else if ys == [] then false
    else (xs[0] == ys[0] && IsSubsequence(xs[1..], ys[1..])) || IsSubsequence(xs, ys[1..])
  }

  /** Appending to the longer sequence keeps a subsequence. */
  lemma {:induction false} SubsequenceAppendRight<T>(xs: seq<T>, ys: seq<T>, y: T)
    requires IsSubsequence(xs, ys)
    ensures IsSubsequence(xs, ys + [y])
    decreases |ys|
  {
    if xs != [] {
      var zs := ys + [y];
      assert zs[0] == ys[0] && zs[1..] == ys[1..] + [y];
      if xs[0] == ys[0] && IsSubsequence(xs[1..], ys[1..]) {
        SubsequenceAppendRight(xs[1..], ys[1..], y);
      } else {
        SubsequenceAppendRight(xs, ys[1..], y);
      }
    }
  }

  lemma {:induction false} SingletonSubsequenceOfLast<T>(ys: seq<T>, y: T)
    ensures IsSubsequence([y], ys + [y])
    decreases |ys|
  {
    var zs := ys + [y];
    if ys == [] {
      assert zs == [y] && [y][1..] == [];
    } else {
      assert zs[1..] == ys[1..] + [y];
      SingletonSubsequenceOfLast(ys[1..], y);
    }
  }

  /** Appending the same element to both sides keeps a subsequence. */
  lemma {:induction false} SubsequenceAppendBoth<T>(xs: seq<T>, ys: seq<T>, y: T)
    requires IsSubsequence(xs, ys)
    ensures IsSubsequence(xs + [y], ys + [y])
    decreases |ys|
  {
    if xs == [] {
      assert xs + [y] == [y];
      SingletonSubsequenceOfLast(ys, y);
    } else {
      var ws, zs := xs + [y], ys + [y];
      assert ws[0] == xs[0] && ws[1..] == xs[1..] + [y];
      assert zs[0] == ys[0] && zs[1..] == ys[1..] + [y];
      if xs[0] == ys[0] && IsSubsequence(xs[1..], ys[1..]) {
        SubsequenceAppendBoth(xs[1..], ys[1..], y);
      } else {
        SubsequenceAppendBoth(xs, ys[1..], y);
      }
    }
  }
}

=== FILE: deformer.dfy ===
/**
 The runtime side of the deformer node: the per-joint model list that
 `loadModels` builds from the training output and the joint map, the
 normalisation of a joint's transform before prediction and of the
 prediction after it, the scatter of each model's flat prediction into a
 `3 * numVertices` delta array, and the final offset of every vertex by its
 delta scaled by the envelope and its painted weight.

 Network inference is a parameter `predict(i, values)`: the first row of
 what model `i`'s session returns for the one-row input `values`.
 */
module Deformer {
  import opened Common
  import opened Arrays
  import Train

  // ---------------------------------------------------------------------------
  // loadModels

  /** What `deform` reads of a loaded model besides its network (a `TFModel` without graph, session and tensors). */
  datatype RuntimeModel = RuntimeModel(
    vertices: seq<nat>,
    normalized: bool,
    transMax: Option<seq<real>>,
    transMin: Option<seq<real>>,
    vertsMax: Option<seq<real>>,
    vertsMin: Option<seq<real>>)

  /** One stored entry made runtime: the extremes are read only when the entry says it was normalised. */
  function LoadEntry(e: Train.ModelEntry, vertices: seq<nat>): (m: RuntimeModel)
    ensures m.vertices == vertices && m.normalized == e.normalized
    ensures m.normalized ==> (m.transMax == e.transMax && m.transMin == e.transMin &&
                              m.vertsMax == e.vertsMax && m.vertsMin == e.vertsMin)
    ensures !m.normalized ==> m.transMax.None? && m.transMin.None? && m.vertsMax.None? && m.vertsMin.None?
  {
    if e.normalized then RuntimeModel(vertices, true, e.transMax, e.transMin, e.vertsMax, e.vertsMin)
    else RuntimeModel(vertices, false, None, None, None, None)
  }

  /**
   The node's model list after `loadModels`, and the exception that stopped
   it, if any. An exception leaves the slots appended before it in place.
   */
  datatype Loaded = Loaded(models: seq<Option<RuntimeModel>>, error: Option<PyError>)

  /** The loop over the first `n` stored entries: a falsy entry gives `None`, any other reads `joint_map[i]`. */
  function LoadSlots(entries: seq<Option<Train.ModelEntry>>, jointMap: seq<seq<nat>>, n: nat): (l: Loaded)
    requires n <= |entries|
    ensures |l.models| <= n
  {
    if n == 0 then Loaded([], None)
    else
      var prev := LoadSlots(entries, jointMap, n - 1);
      if prev.error.Some? then prev
      else if entries[n - 1].None? then Loaded(prev.models + [None], None)
      else if n - 1 >= |jointMap| then Loaded(prev.models, Some(IndexError))
      else Loaded(prev.models + [Some(LoadEntry(entries[n - 1].value, jointMap[n - 1]))], None)
  }

  /** `loadModels` on a data file whose `models` list is `data` (`None` when the key is absent). */
  function LoadModels(data: Option<seq<Option<Train.ModelEntry>>>, jointMap: seq<seq<nat>>): (l: Loaded)
    ensures data.None? ==> l == Loaded([], None)
  {
    match data
    case None => Loaded([], None)
    case Some(entries) => LoadSlots(entries, jointMap, |entries|)
  }

  /** Loading fails exactly when some stored entry has no `joint_map` list at its index. */
  lemma {:induction false} LoadSlotsError(entries: seq<Option<Train.ModelEntry>>, jointMap: seq<seq<nat>>, n: nat)
    requires n <= |entries|
    ensures LoadSlots(entries, jointMap, n).error.None? <==>
            forall i :: 0 <= i < n && entries[i].Some? ==> i < |jointMap|
    ensures LoadSlots(entries, jointMap, n).error.Some? ==> LoadSlots(entries, jointMap, n).error == Some(IndexError)
    decreases n
  {
    if n > 0 {
      LoadSlotsError(entries, jointMap, n - 1);
    }
  }

  /**
   Without an error there is one slot per stored entry, in order: `None` for
   a falsy entry, and otherwise the entry paired with `joint_map[i]`.
   */
  lemma {:induction false} LoadSlotsAligned(entries: seq<Option<Train.ModelEntry>>, jointMap: seq<seq<nat>>, n: nat)
    requires n <= |entries|
    requires LoadSlots(entries, jointMap, n).error.None?
    ensures var models := LoadSlots(entries, jointMap, n).models;
            && |models| == n
            && forall i :: 0 <= i < n ==>
                 (models[i].None? <==> entries[i].None?) &&
                 (entries[i].Some? ==> i < |jointMap| && models[i].value == LoadEntry(entries[i].value, jointMap[i]))
    decreases n
  {
    if n > 0 {
      LoadSlotsAligned(entries, jointMap, n - 1);
    }
  }

  /**
   An error stops the loop at the first stored entry without a `joint_map`
   list; the slots kept are exactly those loaded from the entries before it.
   */
  lemma {:induction false} LoadSlotsStops(entries: seq<Option<Train.ModelEntry>>, jointMap: seq<seq<nat>>, n: nat)
    requires n <= |entries|
    requires LoadSlots(entries, jointMap, n).error.Some?
    ensures var f := |LoadSlots(entries, jointMap, n).models|;
            && f < n && entries[f].Some? && f >= |jointMap|
            && LoadSlots(entries, jointMap, f) == Loaded(LoadSlots(entries, jointMap, n).models, None)
    decreases n
  {
    var prev := LoadSlots(entries, jointMap, n - 1);
    if prev.error.Some? {
      LoadSlotsStops(entries, jointMap, n - 1);
    } else {
      LoadSlotsAligned(entries, jointMap, n - 1);
    }
  }

  // ---------------------------------------------------------------------------
  // normalize_transform and denormalize_prediction

  /**
   `normalize_transform`: the last three values (the translation) are mapped
   by `(t - t_min) / (t_max - t_min)` with `nan_to_num`, and written back over
   themselves. A model without stored extremes raises.
   */
  function NormalizeTransform(values: seq<real>, m: RuntimeModel): (r: Result<seq<real>, PyError>)
  {
    if m.transMax.None? || m.transMin.None? then Failure(TypeError)
    else
      var lo := TailStart(|values|, 3);
      var num := Broadcast(Sub, values[lo..], m.transMin.value);
      var den := Broadcast(Sub, m.transMax.value, m.transMin.value);
      if num.Failure? then Failure(num.error)
      else if den.Failure? then Failure(den.error)
      else
        var q := Broadcast(Div, num.value, den.value);
        if q.Failure? then Failure(q.error)
        else AssignSlice(values, lo, |values|, q.value)
  }

  /** Whatever the stored extremes, only the translation slice can change: the rotation values pass through. */
  lemma NormalizeTransformKeepsRotation(values: seq<real>, m: RuntimeModel)
    requires NormalizeTransform(values, m).Success?
    ensures var r := NormalizeTransform(values, m).value;
            var lo := TailStart(|values|, 3);
            |r| == |values| && r[..lo] == values[..lo]
  {
    var r := NormalizeTransform(values, m).value;
    var lo := TailStart(|values|, 3);
    assert SliceStart(|values|, lo) == lo;
    assert forall j :: 0 <= j < lo ==> r[j] == values[j];
  }

  /** Three stored extremes per column make the normalisation succeed cell by cell. */
  lemma NormalizeTransformCells(values: seq<real>, m: RuntimeModel)
    requires |values| >= 3
    requires m.transMax.Some? && m.transMin.Some? && |m.transMax.value| == 3 && |m.transMin.value| == 3
    ensures NormalizeTransform(values, m).Success?
    ensures var r := NormalizeTransform(values, m).value;
            var lo := |values| - 3;
            && |r| == |values|
            && forall c :: 0 <= c < 3 ==>
                 r[lo + c] == DivFinite(values[lo + c] - m.transMin.value[c], m.transMax.value[c] - m.transMin.value[c])
  {
    var lo := |values| - 3;
    assert TailStart(|values|, 3) == lo;
    assert SliceStart(|values|, lo) == lo && SliceStop(|values|, lo, |values|) == |values|;
  }

  /**
   For a column whose training extremes differ, the runtime map is the
   training map of `normalize_features`: the network sees inputs in the range
   it was fitted on.
   */
  lemma NormalizeTransformMatchesTraining(values: seq<real>, m: RuntimeModel, c: nat)
    requires |values| >= 3 && c < 3
    requires m.transMax.Some? && m.transMin.Some? && |m.transMax.value| == 3 && |m.transMin.value| == 3
    requires m.transMax.value[c] != m.transMin.value[c]
    ensures NormalizeTransform(values, m).Success?
    ensures NormalizeTransform(values, m).value[|values| - 3 + c] ==
            Train.NormalizeCell(values[|values| - 3 + c], m.transMin.value[c], m.transMax.value[c])
  {
    NormalizeTransformCells(values, m);
  }

  /**
   For a column that was constant in training, the training map sent every
   value to 0, while at runtime any other value becomes the largest double
   of its sign.
   */
  lemma NormalizeTransformConstantColumn(values: seq<real>, m: RuntimeModel, c: nat)
    requires |values| >= 3 && c < 3
    requires m.transMax.Some? && m.transMin.Some? && |m.transMax.value| == 3 && |m.transMin.value| == 3
    requires m.transMax.value[c] == m.transMin.value[c]
    ensures Train.NormalizeCell(values[|values| - 3 + c], m.transMin.value[c], m.transMax.value[c]) == 0.0
    ensures NormalizeTransform(values, m).Success?
    ensures var x := NormalizeTransform(values, m).value[|values| - 3 + c];
            && (values[|values| - 3 + c] == m.transMin.value[c] ==> x == 0.0)
            && (values[|values| - 3 + c] > m.transMin.value[c] ==> x == MaxFloat)
            && (values[|values| - 3 + c] < m.transMin.value[c] ==> x == -MaxFloat)
  {
    NormalizeTransformCells(values, m);
  }

  /** `denormalize_prediction`: `prediction * (v_max - v_min) + v_min`. A model without stored extremes raises. */
  function Denormalize(pred: seq<real>, m: RuntimeModel): (r: Result<seq<real>, PyError>)
  {
    if m.vertsMax.None? || m.vertsMin.None? then Failure(TypeError)
    else
      var range := Broadcast(Sub, m.vertsMax.value, m.vertsMin.value);
      if range.Failure? then Failure(range.error)
      else
        var scaled := Broadcast(Mul, pred, range.value);
        if scaled.Failure? then Failure(scaled.error)
        else Broadcast(Add, scaled.value, m.vertsMin.value)
  }

  /** With one stored extreme per predicted value, each value is scaled back by its own column's range. */
  lemma DenormalizeCells(pred: seq<real>, m: RuntimeModel)
    requires m.vertsMax.Some? && m.vertsMin.Some?
    requires |m.vertsMax.value| == |pred| && |m.vertsMin.value| == |pred|
    ensures Denormalize(pred, m).Success?
    ensures |Denormalize(pred, m).value| == |pred|
    ensures forall i :: 0 <= i < |pred| ==>
              Denormalize(pred, m).value[i] == pred[i] * (m.vertsMax.value[i] - m.vertsMin.value[i]) + m.vertsMin.value[i]
  {
  }

  /** The min–max map undone: for a value between its extremes, denormalising the normalised cell gives it back. */
  lemma DenormalizeCellInverts(x: real, lo: real, hi: real)
    requires lo <= x <= hi
    ensures Train.NormalizeCell(x, lo, hi) * (hi - lo) + lo == x
  {
    if lo < hi {
      var q := (x - lo) / (hi - lo);
      assert q * (hi - lo) == x - lo;
    }
  }

  /**
   `denormalize_prediction` inverts `normalize_features`: a prediction equal
   to the normalised vertex row of a training row between the stored
   extremes is mapped back onto that row.
   */
  lemma DenormalizeInvertsNormalize(x: seq<real>, m: RuntimeModel)
    requires m.vertsMax.Some? && m.vertsMin.Some?
    requires |m.vertsMax.value| == |x| && |m.vertsMin.value| == |x|
    requires forall i :: 0 <= i < |x| ==> m.vertsMin.value[i] <= x[i] <= m.vertsMax.value[i]
    ensures var pred := seq(|x|, i requires 0 <= i < |x| => Train.NormalizeCell(x[i], m.vertsMin.value[i], m.vertsMax.value[i]));
            Denormalize(pred, m) == Success(x)
  {
    var pred := seq(|x|, i requires 0 <= i < |x| => Train.NormalizeCell(x[i], m.vertsMin.value[i], m.vertsMax.value[i]));
    DenormalizeCells(pred, m);
    var r := Denormalize(pred, m).value;
    forall i | 0 <= i < |x|
      ensures r[i] == x[i]
    {
      DenormalizeCellInverts(x[i], m.vertsMin.value[i], m.vertsMax.value[i]);
    }
    assert r == x;
  }

  /** A normalised entry's output row, denormalised with the entry's own extremes, is the row's vertex columns. */
  lemma DenormalizeEntryRow(e: Train.ModelEntry, rows: seq<seq<real>>, k: nat, width: nat, vertices: seq<nat>, r: nat)
    requires Train.Rectangular(rows, width) && k < width && r < |rows|
    requires e.normalized && Train.VerticesNormalized(e, rows, k, width)
    ensures r < |e.outputs| && Denormalize(e.outputs[r], LoadEntry(e, vertices)) == Success(rows[r][k..])
  {
    var m := LoadEntry(e, vertices);
    var x := rows[r][k..];
    Train.VerticesNormalizedAt(e, rows, k, width, r, k);
    var pred := seq(|x|, i requires 0 <= i < |x| => Train.NormalizeCell(x[i], m.vertsMin.value[i], m.vertsMax.value[i]));
    forall i | 0 <= i < |x|
      ensures e.outputs[r][i] == pred[i] && m.vertsMin.value[i] <= x[i] <= m.vertsMax.value[i]
    {
      var c := k + i;
      Train.VerticesNormalizedAt(e, rows, k, width, r, c);
      assert c - k == i && x[i] == rows[r][c];
    }
    assert e.outputs[r] == pred;
    DenormalizeInvertsNormalize(x, m);
  }

  /**
   Training and runtime agree: denormalising, with the model `loadModels`
   makes of a normalised training entry, the entry's stored outputs for a
   de-duplicated row gives back that row's vertex columns. A network that
   fitted its training data exactly therefore reproduces the recorded deltas.
   */
  lemma DenormalizeTrainingRow(csv: Train.Csv, k: nat, opts: Train.Options, vertices: seq<nat>, r: nat)
    requires Train.Rectangular(csv.rows, csv.width) && k <= csv.width
    requires opts.normalize
    requires Train.TrainCsv(csv, k, opts).Success? && Train.TrainCsv(csv, k, opts).value.Some?
    requires r < |Train.Kept(csv, k)|
    ensures var e := Train.TrainCsv(csv, k, opts).value.value;
            && r < |e.outputs|
            && Denormalize(e.outputs[r], LoadEntry(e, vertices)) == Success(Train.Kept(csv, k)[r][k..])
  {
    var e := Train.TrainCsv(csv, k, opts).value.value;
    Train.TrainCsvNormalizedOutputs(csv, k, opts);
    Train.TrainCsvEntry(csv, k, opts);
    Train.BuildEntryColumns(Train.Kept(csv, k), k, csv.width, opts);
    DenormalizeEntryRow(e, Train.Kept(csv, k), k, csv.width, vertices, r);
  }

  // ---------------------------------------------------------------------------
  // The delta scatter

  /** `deltas[vtx*3 : vtx*3 + 3] = prediction[index*3 : index*3 + 3]`. */
  function AssignTriple(deltas: seq<real>, vtx: nat, pred: seq<real>, index: nat): Result<seq<real>, PyError>
  {
    AssignSlice(deltas, 3 * vtx, 3 * vtx + 3, Slice(pred, 3 * index, 3 * index + 3))
  }

  /** The loop over `enumerate(model.vertices)`, first `n` vertices, stopping at the first exception. */
  function Scatter(deltas: seq<real>, vertices: seq<nat>, pred: seq<real>, n: nat): (r: Result<seq<real>, PyError>)
    requires n <= |vertices|
    ensures r.Success? ==> |r.value| == |deltas|
  {
    if n == 0 then Success(deltas)
    else
      var prev := Scatter(deltas, vertices, pred, n - 1);
      if prev.Failure? then prev
      else AssignTriple(prev.value, vertices[n - 1], pred, n - 1)
  }

  /** The last position before `n` at which `xs` holds `v`, or -1 when there is none. */
  function LastAt(xs: seq<nat>, v: nat, n: nat): (p: int)
    requires n <= |xs|
    ensures -1 <= p < n
    ensures p >= 0 ==> xs[p] == v
  {
    if n == 0 then -1
    else if xs[n - 1] == v then n - 1
    else LastAt(xs, v, n - 1)
  }

  /** `LastAt` finds `v` exactly when it occurs, and no later position before `n` holds it. */
  lemma {:induction false} LastAtIsLast(xs: seq<nat>, v: nat, n: nat)
    requires n <= |xs|
    ensures LastAt(xs, v, n) >= 0 <==> exists j :: 0 <= j < n && xs[j] == v
    ensures forall j :: LastAt(xs, v, n) < j < n ==> xs[j] != v
    decreases n
  {
    if n > 0 {
      LastAtIsLast(xs, v, n - 1);
      if xs[n - 1] == v {
        assert xs[n - 1] == v;
      }
    }
  }

  /** Assigning one vertex's triple leaves every cell of every other vertex alone. */
  lemma AssignTripleKeeps(deltas: seq<real>, vtx: nat, pred: seq<real>, index: nat, j: nat)
    requires AssignTriple(deltas, vtx, pred, index).Success?
    requires j < |deltas| && j / 3 != vtx
    ensures AssignTriple(deltas, vtx, pred, index).value[j] == deltas[j]
  {
    var a, b := SliceStart(|deltas|, 3 * vtx), SliceStop(|deltas|, 3 * vtx, 3 * vtx + 3);
    assert !(a <= j < b);
  }

  /** A vertex inside the mesh with a full triple of prediction gets exactly that triple. */
  lemma AssignTripleWrites(deltas: seq<real>, vtx: nat, pred: seq<real>, index: nat, c: nat)
    requires 3 * vtx + 3 <= |deltas| && 3 * index + 3 <= |pred| && c < 3
    ensures AssignTriple(deltas, vtx, pred, index).Success?
    ensures AssignTriple(deltas, vtx, pred, index).value[3 * vtx + c] == pred[3 * index + c]
  {
    assert SliceStart(|deltas|, 3 * vtx) == 3 * vtx && SliceStop(|deltas|, 3 * vtx, 3 * vtx + 3) == 3 * vtx + 3;
  }

  /** A cell of a vertex not among the first `n` listed vertices is never written. */
  lemma {:induction false} ScatterKeeps(deltas: seq<real>, vertices: seq<nat>, pred: seq<real>, n: nat, j: nat)
    requires n <= |vertices| && j < |deltas|
    requires Scatter(deltas, vertices, pred, n).Success?
    requires forall i :: 0 <= i < n ==> vertices[i] != j / 3
    ensures Scatter(deltas, vertices, pred, n).value[j] == deltas[j]
    decreases n
  {
    if n > 0 {
      var prev := Scatter(deltas, vertices, pred, n - 1);
      ScatterKeeps(deltas, vertices, pred, n - 1, j);
      AssignTripleKeeps(prev.value, vertices[n - 1], pred, n - 1, j);
    }
  }

  /**
   Listed vertices inside the mesh and a prediction with three values per
   listed vertex make the scatter succeed.
   */
  lemma {:induction false} ScatterSucceeds(deltas: seq<real>, vertices: seq<nat>, pred: seq<real>, n: nat)
    requires n <= |vertices| && 3 * n <= |pred|
    requires forall i :: 0 <= i < n ==> 3 * vertices[i] + 3 <= |deltas|
    ensures Scatter(deltas, vertices, pred, n).Success?
    decreases n
  {
    if n > 0 {
      ScatterSucceeds(deltas, vertices, pred, n - 1);
      AssignTripleWrites(Scatter(deltas, vertices, pred, n - 1).value, vertices[n - 1], pred, n - 1, 0);
    }
  }

  /**
   After the scatter, a listed vertex holds the prediction triple at its
   LAST position in the list: a later listing overwrites an earlier one.
   */
  lemma {:induction false} ScatterWrites(deltas: seq<real>, vertices: seq<nat>, pred: seq<real>, n: nat, v: nat, c: nat)
    requires n <= |vertices| && 3 * n <= |pred| && c < 3
    requires 3 * v + 3 <= |deltas| && LastAt(vertices, v, n) >= 0
    requires Scatter(deltas, vertices, pred, n).Success?
    ensures Scatter(deltas, vertices, pred, n).value[3 * v + c] == pred[3 * LastAt(vertices, v, n) + c]
    decreases n
  {
    if vertices[n - 1] == v {
      ScatterStepWrites(deltas, vertices, pred, n, c);
    } else {
      ScatterWrites(deltas, vertices, pred, n - 1, v, c);
      CellVertex(v, c);
      ScatterStepKeeps(deltas, vertices, pred, n, 3 * v + c);
    }
  }

  /** The last step of a scatter writes the prediction triple of the last listed vertex. */
  lemma ScatterStepWrites(deltas: seq<real>, vertices: seq<nat>, pred: seq<real>, n: nat, c: nat)
    requires 0 < n <= |vertices| && 3 * n <= |pred| && c < 3
    requires 3 * vertices[n - 1] + 3 <= |deltas|
    requires Scatter(deltas, vertices, pred, n).Success?
    ensures Scatter(deltas, vertices, pred, n).value[3 * vertices[n - 1] + c] == pred[3 * (n - 1) + c]
  {
    var prev := Scatter(deltas, vertices, pred, n - 1);
    AssignTripleWrites(prev.value, vertices[n - 1], pred, n - 1, c);
  }

  /** The last step of a scatter leaves the cells of every other vertex alone. */
  lemma ScatterStepKeeps(deltas: seq<real>, vertices: seq<nat>, pred: seq<real>, n: nat, j: nat)
    requires 0 < n <= |vertices| && j < |deltas| && j / 3 != vertices[n - 1]
    requires Scatter(deltas, vertices, pred, n).Success?
    ensures Scatter(deltas, vertices, pred, n - 1).Success?
    ensures Scatter(deltas, vertices, pred, n).value[j] == Scatter(deltas, vertices, pred, n - 1).value[j]
  {
    var prev := Scatter(deltas, vertices, pred, n - 1);
    AssignTripleKeeps(prev.value, vertices[n - 1], pred, n - 1, j);
  }

  /** Cell `3 * v + c` of a delta array belongs to vertex `v`. */
  lemma CellVertex(v: nat, c: nat)
    requires c < 3
    ensures (3 * v + c) / 3 == v
  {
  }

  // ---------------------------------------------------------------------------
  // deform

  /** Matrix `i` is used only when there is a model slot for it and the slot holds a model. */
  predicate Used(models: seq<Option<RuntimeModel>>, i: nat) {
    i < |models| && models[i].Some?
  }

  /**
   Model `i`'s prediction for its joint's seven transform values: normalised
   first and denormalised after when the model was trained normalised.
   */
  function Prediction(m: RuntimeModel, values: seq<real>, predict: (nat, seq<real>) -> seq<real>, i: nat): Result<seq<real>, PyError>
  {
    var input := if m.normalized then NormalizeTransform(values, m) else Success(values);
    if input.Failure? then Failure(input.error)
    else
      var raw := predict(i, input.value);
      if m.normalized then Denormalize(raw, m) else Success(raw)
  }

  /** `np.zeros(n)`. */
  function Zeros(n: nat): (z: seq<real>)
    ensures |z| == n && forall j :: 0 <= j < n ==> z[j] == 0.0
  {
    seq(n, _ => 0.0)
  }

  /**
   The delta array after the first `count` input matrices: zeros for every
   vertex, then each used model's prediction scattered over its vertices.
   `inputs[i]` holds matrix `i`'s rotation quaternion and world translation.
   */
  function DeltasAfter(models: seq<Option<RuntimeModel>>, inputs: seq<seq<real>>, numVerts: nat,
                       predict: (nat, seq<real>) -> seq<real>, count: nat): (r: Result<seq<real>, PyError>)
    requires count <= |inputs|
    ensures r.Success? ==> |r.value| == 3 * numVerts
  {
    if count == 0 then Success(Zeros(3 * numVerts))
    else
      var prev := DeltasAfter(models, inputs, numVerts, predict, count - 1);
      var i := count - 1;
      if prev.Failure? || !Used(models, i) then prev
      else
        var m := models[i].value;
        var pred := Prediction(m, inputs[i], predict, i);
        if pred.Failure? then Failure(pred.error)
        else Scatter(prev.value, m.vertices, pred.value, |m.vertices|)
  }

  /** The transform of a matrix without a model is never read: changing it changes nothing. */
  lemma {:induction false} DeltasIgnoreUnused(models: seq<Option<RuntimeModel>>, a: seq<seq<real>>, b: seq<seq<real>>,
                                              numVerts: nat, predict: (nat, seq<real>) -> seq<real>, count: nat)
    requires count <= |a| && count <= |b|
    requires forall i :: 0 <= i < count && Used(models, i) ==> a[i] == b[i]
    ensures DeltasAfter(models, a, numVerts, predict, count) == DeltasAfter(models, b, numVerts, predict, count)
    decreases count
  {
    if count > 0 {
      DeltasIgnoreUnused(models, a, b, numVerts, predict, count - 1);
    }
  }

  /** Input matrices past the end of the model list are skipped. */
  lemma {:induction false} DeltasExtraMatrices(models: seq<Option<RuntimeModel>>, inputs: seq<seq<real>>, numVerts: nat,
                                               predict: (nat, seq<real>) -> seq<real>, count: nat)
    requires |models| <= count <= |inputs|
    ensures DeltasAfter(models, inputs, numVerts, predict, count) == DeltasAfter(models, inputs, numVerts, predict, |models|)
    decreases count
  {
    if count > |models| {
      DeltasExtraMatrices(models, inputs, numVerts, predict, count - 1);
    }
  }

  /** The vertex is listed by no used model among the first `count`. */
  predicate Unlisted(models: seq<Option<RuntimeModel>>, count: nat, v: nat) {
    forall i :: 0 <= i < count && Used(models, i) ==> v !in models[i].value.vertices
  }

  /** A vertex no used model lists keeps a zero delta. */
  lemma {:induction false} DeltasUnlistedZero(models: seq<Option<RuntimeModel>>, inputs: seq<seq<real>>, numVerts: nat,
                                              predict: (nat, seq<real>) -> seq<real>, count: nat, v: nat, c: nat)
    requires count <= |inputs| && v < numVerts && c < 3
    requires DeltasAfter(models, inputs, numVerts, predict, count).Success?
    requires Unlisted(models, count, v)
    ensures 3 * v + c < 3 * numVerts
    ensures DeltasAfter(models, inputs, numVerts, predict, count).value[3 * v + c] == 0.0
    decreases count
  {
    if count > 0 {
      DeltasStepKeeps(models, inputs, numVerts, predict, count, v, c);
      DeltasUnlistedZero(models, inputs, numVerts, predict, count - 1, v, c);
    }
  }

  /** A matrix whose model does not list `v` leaves `v`'s cells as they were. */
  lemma DeltasStepKeeps(models: seq<Option<RuntimeModel>>, inputs: seq<seq<real>>, numVerts: nat,
                        predict: (nat, seq<real>) -> seq<real>, count: nat, v: nat, c: nat)
    requires 0 < count <= |inputs| && v < numVerts && c < 3
    requires DeltasAfter(models, inputs, numVerts, predict, count).Success?
    requires Used(models, count - 1) ==> v !in models[count - 1].value.vertices
    ensures DeltasAfter(models, inputs, numVerts, predict, count - 1).Success?
    ensures DeltasAfter(models, inputs, numVerts, predict, count).value[3 * v + c] ==
            DeltasAfter(models, inputs, numVerts, predict, count - 1).value[3 * v + c]
  {
    var i := count - 1;
    if Used(models, i) {
      var m := models[i].value;
      var prev := DeltasAfter(models, inputs, numVerts, predict, count - 1);
      var pred := Prediction(m, inputs[i], predict, i);
      assert DeltasAfter(models, inputs, numVerts, predict, count) == Scatter(prev.value, m.vertices, pred.value, |m.vertices|);
      CellVertex(v, c);
      ScatterKeeps(prev.value, m.vertices, pred.value, |m.vertices|, 3 * v + c);
    }
  }

  /** Success after `count` matrices means success after each shorter prefix. */
  lemma {:induction false} DeltasPrefixSucceeds(models: seq<Option<RuntimeModel>>, inputs: seq<seq<real>>, numVerts: nat,
                                                predict: (nat, seq<real>) -> seq<real>, count: nat, j: nat)
    requires j <= count <= |inputs|
    requires DeltasAfter(models, inputs, numVerts, predict, count).Success?
    ensures DeltasAfter(models, inputs, numVerts, predict, j).Success?
    decreases count
  {
    if j < count {
      DeltasPrefixSucceeds(models, inputs, numVerts, predict, count - 1, j);
    }
  }

  /** Models after the last one listing `v` leave its cell as that model wrote it. */
  lemma {:induction false} DeltasKeptAfter(models: seq<Option<RuntimeModel>>, inputs: seq<seq<real>>, numVerts: nat,
                                           predict: (nat, seq<real>) -> seq<real>, count: nat, j: nat, v: nat, c: nat)
    requires j <= count <= |inputs| && v < numVerts && c < 3
    requires DeltasAfter(models, inputs, numVerts, predict, count).Success?
    requires forall i :: j <= i < count && Used(models, i) ==> v !in models[i].value.vertices
    ensures DeltasAfter(models, inputs, numVerts, predict, j).Success?
    ensures DeltasAfter(models, inputs, numVerts, predict, count).value[3 * v + c] ==
            DeltasAfter(models, inputs, numVerts, predict, j).value[3 * v + c]
    decreases count
  {
    DeltasPrefixSucceeds(models, inputs, numVerts, predict, count, j);
    if j < count {
      DeltasStepKeeps(models, inputs, numVerts, predict, count, v, c);
      DeltasKeptAfter(models, inputs, numVerts, predict, count - 1, j, v, c);
    }
  }

  /** Right after a used model's scatter, a vertex it lists holds its prediction at the vertex's last position. */
  lemma DeltasAtWriter(models: seq<Option<RuntimeModel>>, inputs: seq<seq<real>>, numVerts: nat,
                       predict: (nat, seq<real>) -> seq<real>, j: nat, v: nat, c: nat)
    requires j < |inputs| && v < numVerts && c < 3
    requires DeltasAfter(models, inputs, numVerts, predict, j + 1).Success?
    requires Used(models, j) && LastAt(models[j].value.vertices, v, |models[j].value.vertices|) >= 0
    requires Prediction(models[j].value, inputs[j], predict, j).Success?
    requires |Prediction(models[j].value, inputs[j], predict, j).value| >= 3 * |models[j].value.vertices|
    ensures DeltasAfter(models, inputs, numVerts, predict, j + 1).value[3 * v + c] ==
            Prediction(models[j].value, inputs[j], predict, j).value[3 * LastAt(models[j].value.vertices, v, |models[j].value.vertices|) + c]
  {
    var m := models[j].value;
    var pred := Prediction(m, inputs[j], predict, j).value;
    var prev := DeltasAfter(models, inputs, numVerts, predict, j);
    assert DeltasAfter(models, inputs, numVerts, predict, j + 1) == Scatter(prev.value, m.vertices, pred, |m.vertices|);
    ScatterWrites(prev.value, m.vertices, pred, |m.vertices|, v, c);
  }

  /**
   Last writer wins: a vertex inside the mesh ends up with the prediction of
   the last used model that lists it, taken at its last position in that
   model's vertex list, provided that model predicts three values per vertex.
   */
  lemma DeltasLastWriter(models: seq<Option<RuntimeModel>>, inputs: seq<seq<real>>, numVerts: nat,
                         predict: (nat, seq<real>) -> seq<real>, count: nat, j: nat, v: nat, c: nat)
    requires j < count <= |inputs| && v < numVerts && c < 3
    requires DeltasAfter(models, inputs, numVerts, predict, count).Success?
    requires Used(models, j) && v in models[j].value.vertices
    requires forall i :: j < i < count && Used(models, i) ==> v !in models[i].value.vertices
    requires Prediction(models[j].value, inputs[j], predict, j).Success?
    requires |Prediction(models[j].value, inputs[j], predict, j).value| >= 3 * |models[j].value.vertices|
    ensures var m := models[j].value;
            var p := LastAt(m.vertices, v, |m.vertices|);
            && 0 <= p
            && DeltasAfter(models, inputs, numVerts, predict, count).value[3 * v + c] ==
               Prediction(m, inputs[j], predict, j).value[3 * p + c]
  {
    var vs := models[j].value.vertices;
    var k :| 0 <= k < |vs| && vs[k] == v;
    LastAtIsLast(vs, v, |vs|);
    DeltasKeptAfter(models, inputs, numVerts, predict, count, j + 1, v, c);
    DeltasAtWriter(models, inputs, numVerts, predict, j, v, c);
  }

  // ---------------------------------------------------------------------------
  // Moving the vertices

  /** `v * s`, component-wise. */
  function Scaled(d: Vec3, s: real): Vec3 {
    Vec3(d.x * s, d.y * s, d.z * s)
  }

  /** The delta triple of vertex `v`. */
  function DeltaOf(deltas: seq<real>, v: nat): Vec3
    requires 3 * v + 3 <= |deltas|
  {
    Vec3(deltas[3 * v], deltas[3 * v + 1], deltas[3 * v + 2])
  }

  /** The iterator loop: every vertex moves by its delta times the envelope times its painted weight. */
  function ApplyDeltas(positions: seq<Vec3>, weights: seq<real>, envelope: real, deltas: seq<real>): (r: seq<Vec3>)
    requires |weights| == |positions| && |deltas| == 3 * |positions|
    ensures |r| == |positions|
    ensures forall v :: 0 <= v < |positions| ==> r[v].Minus(positions[v]) == Scaled(DeltaOf(deltas, v), envelope * weights[v])
  {
    seq(|positions|, v requires 0 <= v < |positions| =>
      var d := DeltaOf(deltas, v);
      Vec3(positions[v].x + d.x * envelope * weights[v],
           positions[v].y + d.y * envelope * weights[v],
           positions[v].z + d.z * envelope * weights[v]))
  }

  /** A zero envelope, a zero painted weight or a zero delta leaves the vertex where it was. */
  lemma ApplyDeltasInPlace(positions: seq<Vec3>, weights: seq<real>, envelope: real, deltas: seq<real>, v: nat)
    requires |weights| == |positions| && |deltas| == 3 * |positions| && v < |positions|
    requires envelope == 0.0 || weights[v] == 0.0 || DeltaOf(deltas, v) == Vec3(0.0, 0.0, 0.0)
    ensures ApplyDeltas(positions, weights, envelope, deltas)[v] == positions[v]
  {
    var r := ApplyDeltas(positions, weights, envelope, deltas);
    var d := DeltaOf(deltas, v);
    assert r[v].Minus(positions[v]) == Scaled(d, envelope * weights[v]);
  }

  /**
   `deform` on a mesh of `|positions|` vertices whose iterator visits every
   vertex: the delta array from every input matrix, then the vertex moves.
   */
  function Deform(models: seq<Option<RuntimeModel>>, inputs: seq<seq<real>>, predict: (nat, seq<real>) -> seq<real>,
                  positions: seq<Vec3>, weights: seq<real>, envelope: real): (r: Result<seq<Vec3>, PyError>)
    requires |weights| == |positions|
    ensures r.Success? ==> |r.value| == |positions|
  {
    var deltas := DeltasAfter(models, inputs, |positions|, predict, |inputs|);
    if deltas.Failure? then Failure(deltas.error)
    else Success(ApplyDeltas(positions, weights, envelope, deltas.value))
  }

  /** A vertex that no used model lists stays where it is. */
  lemma DeformUnlistedStays(models: seq<Option<RuntimeModel>>, inputs: seq<seq<real>>, predict: (nat, seq<real>) -> seq<real>,
                            positions: seq<Vec3>, weights: seq<real>, envelope: real, v: nat)
    requires |weights| == |positions| && v < |positions|
    requires Deform(models, inputs, predict, positions, weights, envelope).Success?
    requires Unlisted(models, |inputs|, v)
    ensures Deform(models, inputs, predict, positions, weights, envelope).value[v] == positions[v]
  {
    var deltas := DeltasAfter(models, inputs, |positions|, predict, |inputs|).value;
    DeltasUnlistedZero(models, inputs, |positions|, predict, |inputs|, v, 0);
    DeltasUnlistedZero(models, inputs, |positions|, predict, |inputs|, v, 1);
    DeltasUnlistedZero(models, inputs, |positions|, predict, |inputs|, v, 2);
    ApplyDeltasInPlace(positions, weights, envelope, deltas, v);
  }
}

=== FILE: skinning.dfy ===
/**
 Weight simplification (MLDeform/_maya/skinning.py). A skin cluster's weights
 are a flat table with `stride` influences per vertex; both strategies rewrite
 every vertex row as a one-hot row. The fast strategy keeps each vertex's
 heaviest influence. The exhaustive strategy poses the driving mesh with every
 vertex bound to a single influence, one influence at a time, over a stepped
 frame range, accumulates the distance to the reference point per vertex and
 influence, and keeps the influence with the smallest total.

 The host scene is a set of query functions: where the driving mesh puts a
 vertex at a frame under a given weighting, where the target mesh has it, and
 a distance between points. `get_joints`' root filter is here too.
 */
module Skinning {
  import opened Common
  import opened Strided

  datatype SkinError =
    | NoInfluences          // `max()` / `min()` over an empty row raises ValueError
    | VertexCountMismatch   // "Target Mesh has a different vertex count"
    | ZeroStep              // `range()` with a zero step raises ValueError

  // ---------------------------------------------------------------------------
  // get_joints

  /** No entry other than `joint` itself is a string prefix of it. */
  ghost predicate IsRoot(joint: string, all: seq<string>) {
    forall other :: other in all && other != joint ==> !(other <= joint)
  }

  /**
   The inner loop of `get_joints`: scanning `others`, equal entries are
   skipped and the first entry that is a prefix of `joint` breaks out.
   */
  function Breaks(joint: string, others: seq<string>): (b: bool)
    ensures b <==> exists other :: other in others && other != joint && other <= joint
  {
    assert forall other :: other in others <==> (|others| > 0 && (other == others[0] || other in others[1..]));
    if |others| == 0 then false
    else if others[0] == joint then Breaks(joint, others[1..])
    else if others[0] <= joint then assert others[0] in others; true
    else Breaks(joint, others[1..])
  }

  /** The outer loop: keeps, in order, each candidate the inner loop did not break on. */
  function KeepRoots(candidates: seq<string>, all: seq<string>): seq<string>
  {
    if |candidates| == 0 then []
    else (if Breaks(candidates[0], all) then [] else [candidates[0]]) + KeepRoots(candidates[1..], all)
  }

  /** `get_joints` once the host has listed the joints' full paths. */
  function GetJoints(joints: seq<string>): seq<string>
  {
    KeepRoots(joints, joints)
  }

  lemma {:induction false} KeepRootsSpec(candidates: seq<string>, all: seq<string>)
    ensures IsSubsequence(KeepRoots(candidates, all), candidates)
    ensures forall j :: multiset(KeepRoots(candidates, all))[j] ==
                        if IsRoot(j, all) then multiset(candidates)[j] else 0
    decreases |candidates|
  {
    if |candidates| > 0 {
      var rest := KeepRoots(candidates[1..], all);
      KeepRootsSpec(candidates[1..], all);
      assert candidates == [candidates[0]] + candidates[1..];
      if Breaks(candidates[0], all) {
        assert KeepRoots(candidates, all) == rest;
      } else {
        assert KeepRoots(candidates, all) == [candidates[0]] + rest;
      }
    }
  }

  /**
   `get_joints` returns, in their original order and with their original
   multiplicity, exactly the joints that no other distinct joint is a prefix of.
   */
  lemma GetJointsKeepsRoots(joints: seq<string>)
    ensures IsSubsequence(GetJoints(joints), joints)
    ensures forall j :: j in GetJoints(joints) <==> j in joints && IsRoot(j, joints)
    ensures forall j :: multiset(GetJoints(joints))[j] == if IsRoot(j, joints) then multiset(joints)[j] else 0
  {
    KeepRootsSpec(joints, joints);
    forall j
      ensures j in GetJoints(joints) <==> j in joints && IsRoot(j, joints)
    {
      assert j in GetJoints(joints) <==> multiset(GetJoints(joints))[j] > 0;
      assert j in joints <==> multiset(joints)[j] > 0;
    }
  }

  lemma {:induction false} KeepRootsKeepsAll(candidates: seq<string>, all: seq<string>)
    requires forall j :: j in candidates ==> IsRoot(j, all)
    ensures KeepRoots(candidates, all) == candidates
    decreases |candidates|
  {
    if |candidates| > 0 {
      assert candidates[0] in candidates;
      KeepRootsKeepsAll(candidates[1..], all);
    }
  }

  /** Filtering the roots again changes nothing: a root stays a root among roots. */
  lemma GetJointsIdempotent(joints: seq<string>)
    ensures GetJoints(GetJoints(joints)) == GetJoints(joints)
  {
    var roots := GetJoints(joints);
    GetJointsKeepsRoots(joints);
    forall j | j in roots
      ensures IsRoot(j, roots)
    {
      forall other | other in roots && other != j
        ensures !(other <= j)
      {
        assert other in joints;
      }
    }
    KeepRootsKeepsAll(roots, roots);
  }

  // ---------------------------------------------------------------------------
  // Fast strategy: __simplify_weights_fast

  /** Every vertex row replaced by the one-hot row at its first maximum weight. */
  function FastRows(weights: seq<real>, numVerts: nat, stride: nat): (rows: seq<seq<real>>)
    requires |weights| == numVerts * stride
    requires numVerts > 0 ==> stride > 0
    ensures |rows| == numVerts
  {
    seq(numVerts, v requires 0 <= v < numVerts => OneHot(stride, ArgMaxFirst(Row(weights, numVerts, stride, v))))
  }

  /**
   `__simplify_weights_fast` on the weight table the host returned. With no
   influences and at least one vertex, `max()` of an empty row raises.
   */
  function SimplifyWeightsFast(weights: seq<real>, numVerts: nat, stride: nat): (r: Result<seq<real>, SkinError>)
    requires |weights| == numVerts * stride
    ensures r.Failure? <==> stride == 0 && numVerts > 0
    ensures r.Failure? ==> r.error == NoInfluences
    ensures r.Success? ==> |r.value| == |weights|
  {
    if stride == 0 && numVerts > 0 then Failure(NoInfluences)
    else
      FastRowsFlatten(weights, numVerts, stride);
      Success(Flatten(FastRows(weights, numVerts, stride)))
  }

  lemma FastRowsFlatten(weights: seq<real>, numVerts: nat, stride: nat)
    requires |weights| == numVerts * stride
    requires numVerts > 0 ==> stride > 0
    ensures |Flatten(FastRows(weights, numVerts, stride))| == numVerts * stride
    ensures forall v :: 0 <= v < numVerts ==>
              Row(Flatten(FastRows(weights, numVerts, stride)), numVerts, stride, v) ==
              OneHot(stride, ArgMaxFirst(Row(weights, numVerts, stride, v)))
  {
    var rows := FastRows(weights, numVerts, stride);
    assert Uniform(rows, stride);
    RowsOfFlatten(rows, stride);
  }

  /**
   The fast strategy keeps the table's length and makes every vertex row
   one-hot, with its single 1.0 at the row's maximum original weight, ties
   going to the lowest influence index; each row then sums to 1.0.
   */
  lemma FastRowsAreOneHot(weights: seq<real>, numVerts: nat, stride: nat)
    requires |weights| == numVerts * stride
    ensures SimplifyWeightsFast(weights, numVerts, stride).Success? ==>
              var out := SimplifyWeightsFast(weights, numVerts, stride).value;
              && |out| == |weights|
              && forall v, k :: 0 <= v < numVerts && 0 <= k < stride ==>
                   (Row(out, numVerts, stride, v)[k] == 1.0 <==> IsFirstMax(Row(weights, numVerts, stride, v), k))
    ensures SimplifyWeightsFast(weights, numVerts, stride).Success? ==>
              var out := SimplifyWeightsFast(weights, numVerts, stride).value;
              forall v :: 0 <= v < numVerts ==> Sum(Row(out, numVerts, stride, v)) == 1.0
  {
    if SimplifyWeightsFast(weights, numVerts, stride).Success? {
      var out := SimplifyWeightsFast(weights, numVerts, stride).value;
      FastRowsFlatten(weights, numVerts, stride);
      forall v, k | 0 <= v < numVerts && 0 <= k < stride
        ensures Row(out, numVerts, stride, v)[k] == 1.0 <==> IsFirstMax(Row(weights, numVerts, stride, v), k)
      {
        FirstMaxUnique(Row(weights, numVerts, stride, v), k);
      }
      forall v | 0 <= v < numVerts
        ensures Sum(Row(out, numVerts, stride, v)) == 1.0
      {
        var k := ArgMaxFirst(Row(weights, numVerts, stride, v));
        OneHotSumsToOne(Row(out, numVerts, stride, v), k);
      }
    }
  }

  /** Each vertex's new row depends on that vertex's own weights and nothing else. */
  lemma FastRowIsLocal(a: seq<real>, b: seq<real>, numVerts: nat, stride: nat, v: nat)
    requires |a| == numVerts * stride && |b| == numVerts * stride && v < numVerts
    requires Row(a, numVerts, stride, v) == Row(b, numVerts, stride, v)
    requires stride > 0
    ensures SimplifyWeightsFast(a, numVerts, stride).Success?
    ensures SimplifyWeightsFast(b, numVerts, stride).Success?
    ensures Row(SimplifyWeightsFast(a, numVerts, stride).value, numVerts, stride, v) ==
            Row(SimplifyWeightsFast(b, numVerts, stride).value, numVerts, stride, v)
  {
    FastRowsFlatten(a, numVerts, stride);
    FastRowsFlatten(b, numVerts, stride);
  }

  /** The row is one-hot somewhere. */
  ghost predicate IsOneHot(row: seq<real>) {
    exists k :: OneHotAt(row, k)
  }

  /** Every vertex row of the table is one-hot somewhere. */
  ghost predicate AllRowsOneHot(weights: seq<real>, numVerts: nat, stride: nat) {
    && |weights| == numVerts * stride
    && forall v: nat :: v < numVerts ==> IsOneHot(Row(weights, numVerts, stride, v))
  }

  /** On a one-hot row the first maximum is the hot entry. */
  lemma OneHotFirstMax(row: seq<real>, k: nat)
    requires OneHotAt(row, k)
    ensures ArgMaxFirst(row) == k
  {
    assert IsFirstMax(row, k);
    FirstMaxUnique(row, k);
  }

  /** A table that is already one-hot comes back unchanged. */
  lemma FastIdempotent(weights: seq<real>, numVerts: nat, stride: nat)
    requires |weights| == numVerts * stride
    requires AllRowsOneHot(weights, numVerts, stride)
    ensures SimplifyWeightsFast(weights, numVerts, stride) == Success(weights)
  {
    if numVerts > 0 {
      assert IsOneHot(Row(weights, numVerts, stride, 0));
      var k :| OneHotAt(Row(weights, numVerts, stride, 0), k);
    }
    var rows := FastRows(weights, numVerts, stride);
    forall v | 0 <= v < numVerts
      ensures rows[v] == Rows(weights, numVerts, stride)[v]
    {
      assert IsOneHot(Row(weights, numVerts, stride, v));
      var k :| OneHotAt(Row(weights, numVerts, stride, v), k);
      OneHotFirstMax(Row(weights, numVerts, stride, v), k);
    }
    assert rows == Rows(weights, numVerts, stride);
    FlattenRows(weights, numVerts, stride);
  }

  /** The fast strategy's output is a table of one-hot rows. */
  lemma FastOutputIsOneHot(weights: seq<real>, numVerts: nat, stride: nat)
    requires |weights| == numVerts * stride
    requires SimplifyWeightsFast(weights, numVerts, stride).Success?
    ensures |SimplifyWeightsFast(weights, numVerts, stride).value| == numVerts * stride
    ensures AllRowsOneHot(SimplifyWeightsFast(weights, numVerts, stride).value, numVerts, stride)
  {
    var out := SimplifyWeightsFast(weights, numVerts, stride).value;
    forall v: nat | v < numVerts
      ensures IsOneHot(Row(out, numVerts, stride, v))
    {
      FastRowOneHot(weights, numVerts, stride, v);
      var k := ArgMaxFirst(Row(weights, numVerts, stride, v));
      assert OneHotAt(Row(out, numVerts, stride, v), k);
    }
  }

  lemma FastRowOneHot(weights: seq<real>, numVerts: nat, stride: nat, v: nat)
    requires |weights| == numVerts * stride && v < numVerts
    requires SimplifyWeightsFast(weights, numVerts, stride).Success?
    ensures |SimplifyWeightsFast(weights, numVerts, stride).value| == numVerts * stride
    ensures OneHotAt(Row(SimplifyWeightsFast(weights, numVerts, stride).value, numVerts, stride, v),
                     ArgMaxFirst(Row(weights, numVerts, stride, v)))
  {
    FastRowsFlatten(weights, numVerts, stride);
  }

  /** Running the fast strategy a second time changes nothing. */
  lemma FastTwiceIsFastOnce(weights: seq<real>, numVerts: nat, stride: nat)
    requires |weights| == numVerts * stride
    requires SimplifyWeightsFast(weights, numVerts, stride).Success?
    ensures |SimplifyWeightsFast(weights, numVerts, stride).value| == numVerts * stride
    ensures SimplifyWeightsFast(SimplifyWeightsFast(weights, numVerts, stride).value, numVerts, stride) ==
            SimplifyWeightsFast(weights, numVerts, stride)
  {
    FastOutputIsOneHot(weights, numVerts, stride);
    FastIdempotent(SimplifyWeightsFast(weights, numVerts, stride).value, numVerts, stride);
  }

  // ---------------------------------------------------------------------------
  // Exhaustive strategy: __simplify_weights

  /** How the driving mesh is weighted when its points are read. */
  datatype Pose =
    | BoundWeights                      // the weights the skin cluster was bound with
    | SingleInfluence(influence: nat)   // every vertex fully on one influence (`preweights[i] * numVerts`)

  /** The scene queries the exhaustive search makes. */
  datatype Scene = Scene(
    posed: (int, Pose, nat) -> Vec3,   // driving mesh: vertex position at a frame under a weighting
    targetPoint: (int, nat) -> Vec3,   // target mesh: vertex position at a frame
    sameMesh: bool)                    // the target is the driving mesh itself

  /** Which mesh the per-frame reference points are read from. */
  datatype PointSource =
    | TargetMesh    // the target mesh, as the docstring and parameters describe
    | DrivingMesh   // the driving mesh, as skinning.py:252 is written

  /** Where the vertex should be at a frame: the target mesh, or the bound driving mesh when they are one. */
  function ObservedTarget(scene: Scene, frame: int, vtx: nat): Vec3 {
    if scene.sameMesh then scene.posed(frame, BoundWeights, vtx) else scene.targetPoint(frame, vtx)
  }

  /**
   The reference point of the `k`-th sampled frame. On the same mesh, the
   bound weights are restored first, so both readings agree. Read from the
   driving mesh of a different target, the points reflect whatever weighting
   was last applied: the bound weights on the first sampled frame, and the
   last influence's single-influence weighting on every later one.
   */
  function ReferencePoint(scene: Scene, src: PointSource, stride: nat, k: nat, frame: int, vtx: nat): Vec3 {
    match src
    case TargetMesh => ObservedTarget(scene, frame, vtx)
    case DrivingMesh =>
      if scene.sameMesh || k == 0 || stride == 0 then scene.posed(frame, BoundWeights, vtx)
      else scene.posed(frame, SingleInfluence(stride - 1), vtx)
  }

  /** Distance, at the `k`-th sampled frame, between vertex `vtx` under influence `i` alone and its reference. */
  function FrameDistance(scene: Scene, dist: (Vec3, Vec3) -> real, src: PointSource, stride: nat,
                         k: nat, frame: int, vtx: nat, i: nat): real
  {
    dist(scene.posed(frame, SingleInfluence(i), vtx), ReferencePoint(scene, src, stride, k, frame, vtx))
  }

  /** The sum of the first `count` sampled frames' distances for one vertex and influence. */
  function DistanceSum(scene: Scene, dist: (Vec3, Vec3) -> real, src: PointSource, stride: nat,
                       frames: seq<int>, count: nat, vtx: nat, i: nat): real
    requires count <= |frames|
  {
    if count == 0 then 0.0
    else DistanceSum(scene, dist, src, stride, frames, count - 1, vtx, i)
         + FrameDistance(scene, dist, src, stride, count - 1, frames[count - 1], vtx, i)
  }

  /** A sum of non-negative distances is non-negative. */
  lemma {:induction false} DistanceSumNonNegative(scene: Scene, dist: (Vec3, Vec3) -> real, src: PointSource,
                                                  stride: nat, frames: seq<int>, count: nat, vtx: nat, i: nat)
    requires forall p, q :: dist(p, q) >= 0.0
    requires count <= |frames|
    ensures DistanceSum(scene, dist, src, stride, frames, count, vtx, i) >= 0.0
    decreases count
  {
    if count > 0 {
      DistanceSumNonNegative(scene, dist, src, stride, frames, count - 1, vtx, i);
    }
  }

  /** Vertex `vtx`'s accumulated distances, one per influence. */
  function DeltaRow(scene: Scene, dist: (Vec3, Vec3) -> real, src: PointSource, stride: nat,
                    frames: seq<int>, vtx: nat): (row: seq<real>)
    ensures |row| == stride
  {
    seq(stride, i requires 0 <= i < stride => DistanceSum(scene, dist, src, stride, frames, |frames|, vtx, i))
  }

  /** The frames sampled: `range(start, end + 1, steps)`. */
  function Frames(start: int, end: int, steps: int): seq<int>
    requires steps != 0
  {
    PyRange(start, end + 1, steps)
  }

  /**
   The frame loop of `__simplify_weights`: for each sampled frame, for each
   influence, pose the mesh on that influence alone and add every vertex's
   distance to its reference into `deltas[vtx][i]` (the flat source index
   `vtx * stride + i`). Every cell ends up holding the sum, over the sampled
   frames in order, of that vertex's distance under that influence.
   */
  method AccumulateDeltas(scene: Scene, dist: (Vec3, Vec3) -> real, src: PointSource,
                          numVerts: nat, stride: nat, frames: seq<int>)
    returns (deltas: seq<seq<real>>)
    requires forall p, q :: dist(p, q) >= 0.0
    ensures |deltas| == numVerts
    ensures forall v :: 0 <= v < numVerts ==> |deltas[v]| == stride
    ensures forall v, i :: 0 <= v < numVerts && 0 <= i < stride ==>
              deltas[v][i] == DistanceSum(scene, dist, src, stride, frames, |frames|, v, i)
    ensures forall v, i :: 0 <= v < numVerts && 0 <= i < stride ==> deltas[v][i] >= 0.0
  {
    deltas := seq(numVerts, v => seq(stride, i => 0.0));
    var k := 0;
    while k < |frames|
      invariant 0 <= k <= |frames|
      invariant |deltas| == numVerts
      invariant forall v :: 0 <= v < numVerts ==> |deltas[v]| == stride
      invariant forall v, i :: 0 <= v < numVerts && 0 <= i < stride ==>
                  deltas[v][i] == DistanceSum(scene, dist, src, stride, frames, k, v, i)
    {
      var i := 0;
      while i < stride
        invariant 0 <= i <= stride
        invariant |deltas| == numVerts
        invariant forall v :: 0 <= v < numVerts ==> |deltas[v]| == stride
        invariant forall v, j :: 0 <= v < numVerts && 0 <= j < stride ==>
                    deltas[v][j] == DistanceSum(scene, dist, src, stride, frames, if j < i then k + 1 else k, v, j)
      {
        var vtx := 0;
        while vtx < numVerts
          invariant 0 <= vtx <= numVerts
          invariant |deltas| == numVerts
          invariant forall v :: 0 <= v < numVerts ==> |deltas[v]| == stride
          invariant forall v, j :: 0 <= v < numVerts && 0 <= j < stride ==>
                      deltas[v][j] == DistanceSum(scene, dist, src, stride, frames,
                                                  if j < i || (j == i && v < vtx) then k + 1 else k, v, j)
        {
          var d := FrameDistance(scene, dist, src, stride, k, frames[k], vtx, i);
          deltas := deltas[vtx := deltas[vtx][i := deltas[vtx][i] + d]];
          vtx := vtx + 1;
        }
        i := i + 1;
      }
      k := k + 1;
    }
    forall v, i | 0 <= v < numVerts && 0 <= i < stride
      ensures deltas[v][i] >= 0.0
    {
      DistanceSumNonNegative(scene, dist, src, stride, frames, |frames|, v, i);
    }
  }

  /**
   The final write of `__simplify_weights` as intended: vertex `v`'s row
   becomes `preweights[choices[v]]`, a single one-hot row of `stride` entries.
   */
  function SelectRows(choices: seq<nat>, stride: nat): (w: seq<real>)
    ensures |w| == |choices| * stride
    ensures forall v :: 0 <= v < |choices| ==> Row(w, |choices|, stride, v) == OneHot(stride, choices[v])
  {
    var rows := seq(|choices|, v requires 0 <= v < |choices| => OneHot(stride, choices[v]));
    assert Uniform(rows, stride);
    RowsOfFlatten(rows, stride);
    Flatten(rows)
  }

  /**
   `__simplify_weights` with its reference points read from the target mesh.
   Errors come in the source's order: the vertex-count check, then `range()`
   with a zero step, then `min()` of an empty row.
   */
  method SimplifyWeightsExhaustive(weights: seq<real>, numVerts: nat, targetNumVerts: nat, stride: nat,
                                   scene: Scene, dist: (Vec3, Vec3) -> real,
                                   start: int, end: int, steps: int)
    returns (r: Result<seq<real>, SkinError>)
    requires |weights| == numVerts * stride
    requires forall p, q :: dist(p, q) >= 0.0
    ensures targetNumVerts != numVerts ==> r == Failure(VertexCountMismatch)
    ensures targetNumVerts == numVerts && steps == 0 ==> r == Failure(ZeroStep)
    ensures targetNumVerts == numVerts && steps != 0 && stride == 0 && numVerts > 0 ==> r == Failure(NoInfluences)
    ensures r.Success? <==> targetNumVerts == numVerts && steps != 0 && (stride > 0 || numVerts == 0)
    ensures r.Success? ==> |r.value| == |weights|
    ensures r.Success? ==>
              forall v :: 0 <= v < numVerts ==>
                OneHotAt(Row(r.value, numVerts, stride, v),
                         ArgMinFirst(DeltaRow(scene, dist, TargetMesh, stride, Frames(start, end, steps), v)))
  {
    if targetNumVerts != numVerts {
      return Failure(VertexCountMismatch);
    }
    if steps == 0 {
      return Failure(ZeroStep);
    }
    var frames := Frames(start, end, steps);
    var deltas := AccumulateDeltas(scene, dist, TargetMesh, numVerts, stride, frames);
    if stride == 0 && numVerts > 0 {
      return Failure(NoInfluences);
    }
    assert forall v :: 0 <= v < numVerts ==> deltas[v] == DeltaRow(scene, dist, TargetMesh, stride, frames, v);
    var choices := seq(numVerts, v requires 0 <= v < numVerts => ArgMinFirst(deltas[v]));
    r := Success(SelectRows(choices, stride));
  }

  /**
   The intended search finds an influence that reproduces the target: if
   influence `j` lands exactly on the observed target at every sampled frame
   and the distance vanishes on equal points, the chosen influence has a
   zero total and is `j` or an earlier influence that is just as good.
   */
  lemma PerfectInfluenceIsChosen(scene: Scene, dist: (Vec3, Vec3) -> real, stride: nat,
                                 frames: seq<int>, vtx: nat, j: nat)
    requires forall p, q :: dist(p, q) >= 0.0
    requires forall p :: dist(p, p) == 0.0
    requires j < stride
    requires forall k :: 0 <= k < |frames| ==>
               scene.posed(frames[k], SingleInfluence(j), vtx) == ObservedTarget(scene, frames[k], vtx)
    ensures ArgMinFirst(DeltaRow(scene, dist, TargetMesh, stride, frames, vtx)) <= j
    ensures DeltaRow(scene, dist, TargetMesh, stride, frames, vtx)[ArgMinFirst(DeltaRow(scene, dist, TargetMesh, stride, frames, vtx))] == 0.0
  {
    var row := DeltaRow(scene, dist, TargetMesh, stride, frames, vtx);
    PerfectSumIsZero(scene, dist, stride, frames, |frames|, vtx, j);
    var c := ArgMinFirst(row);
    DistanceSumNonNegative(scene, dist, TargetMesh, stride, frames, |frames|, vtx, c);
    assert row[c] <= row[j];
  }

  lemma {:induction false} PerfectSumIsZero(scene: Scene, dist: (Vec3, Vec3) -> real, stride: nat,
                                            frames: seq<int>, count: nat, vtx: nat, j: nat)
    requires forall p :: dist(p, p) == 0.0
    requires count <= |frames|
    requires forall k :: 0 <= k < |frames| ==>
               scene.posed(frames[k], SingleInfluence(j), vtx) == ObservedTarget(scene, frames[k], vtx)
    ensures DistanceSum(scene, dist, TargetMesh, stride, frames, count, vtx, j) == 0.0
    decreases count
  {
    if count > 0 {
      PerfectSumIsZero(scene, dist, stride, frames, count - 1, vtx, j);
      var p := scene.posed(frames[count - 1], SingleInfluence(j), vtx);
      assert dist(p, p) == 0.0;
    }
  }

  // ---------------------------------------------------------------------------
  // The two readings of skinning.py as written

  /**
   A small scene on the x axis with a separate target at the origin:
   influence 0 follows the target exactly, influence 1 sits 10 units off,
   and the bound weighting 1 unit off.
   */
  function OffsetScene(): Scene {
    Scene(OffsetPosed, OffsetTargetPoint, false)
  }

  function OffsetPosed(frame: int, pose: Pose, vtx: nat): Vec3 {
    match pose
    case BoundWeights => Vec3(1.0, 0.0, 0.0)
    case SingleInfluence(i) => if i == 1 then Vec3(10.0, 0.0, 0.0) else Vec3(0.0, 0.0, 0.0)
  }

  function OffsetTargetPoint(frame: int, vtx: nat): Vec3 {
    Vec3(0.0, 0.0, 0.0)
  }

  function Abs(x: real): real {
    if x < 0.0 then -x else x
  }

  /** Manhattan distance: non-negative and zero on equal points. */
  function ManhattanDistance(p: Vec3, q: Vec3): real {
    Abs(p.x - q.x) + Abs(p.y - q.y) + Abs(p.z - q.z)
  }

  /** Read as written: the bound pose on the first frame, influence 1's own pose afterwards. */
  lemma OffsetSceneDrivingDistances(k: nat, frame: int)
    ensures FrameDistance(OffsetScene(), ManhattanDistance, DrivingMesh, 2, k, frame, 0, 0) == if k == 0 then 1.0 else 10.0
    ensures FrameDistance(OffsetScene(), ManhattanDistance, DrivingMesh, 2, k, frame, 0, 1) == if k == 0 then 9.0 else 0.0
  {
  }

  /** Read from the target: 0 for influence 0 and 10 for influence 1 on every frame. */
  lemma OffsetSceneTargetDistances(k: nat, frame: int)
    ensures FrameDistance(OffsetScene(), ManhattanDistance, TargetMesh, 2, k, frame, 0, 0) == 0.0
    ensures FrameDistance(OffsetScene(), ManhattanDistance, TargetMesh, 2, k, frame, 0, 1) == 10.0
  {
  }

  lemma OffsetSceneDrivingSums()
    ensures DistanceSum(OffsetScene(), ManhattanDistance, DrivingMesh, 2, [0, 1], 2, 0, 0) == 11.0
    ensures DistanceSum(OffsetScene(), ManhattanDistance, DrivingMesh, 2, [0, 1], 2, 0, 1) == 9.0
  {
    var s := OffsetScene();
    var fs := [0, 1];
    OffsetSceneDrivingDistances(0, fs[0]);
    OffsetSceneDrivingDistances(1, fs[1]);
    SumStep(s, DrivingMesh, fs, 0, 0);
    SumStep(s, DrivingMesh, fs, 1, 0);
    SumStep(s, DrivingMesh, fs, 0, 1);
    SumStep(s, DrivingMesh, fs, 1, 1);
  }

  lemma OffsetSceneTargetSums()
    ensures DistanceSum(OffsetScene(), ManhattanDistance, TargetMesh, 2, [0, 1], 2, 0, 0) == 0.0
    ensures DistanceSum(OffsetScene(), ManhattanDistance, TargetMesh, 2, [0, 1], 2, 0, 1) == 20.0
  {
    var s := OffsetScene();
    var fs := [0, 1];
    OffsetSceneTargetDistances(0, fs[0]);
    OffsetSceneTargetDistances(1, fs[1]);
    SumStep(s, TargetMesh, fs, 0, 0);
    SumStep(s, TargetMesh, fs, 1, 0);
    SumStep(s, TargetMesh, fs, 0, 1);
    SumStep(s, TargetMesh, fs, 1, 1);
  }

  lemma SumStep(s: Scene, src: PointSource, fs: seq<int>, count: nat, i: nat)
    requires count < |fs|
    ensures DistanceSum(s, ManhattanDistance, src, 2, fs, count + 1, 0, i) ==
            DistanceSum(s, ManhattanDistance, src, 2, fs, count, 0, i) + FrameDistance(s, ManhattanDistance, src, 2, count, fs[count], 0, i)
  {
  }

  lemma TwoEntryArgMin(row: seq<real>)
    requires |row| == 2
    ensures ArgMinFirst(row) == if row[1] < row[0] then 1 else 0
  {
    assert row[..1] == [row[0]];
  }

  lemma OffsetSceneDrivingRow()
    ensures DeltaRow(OffsetScene(), ManhattanDistance, DrivingMesh, 2, [0, 1], 0) == [11.0, 9.0]
  {
    OffsetSceneDrivingSums();
    var dw := DeltaRow(OffsetScene(), ManhattanDistance, DrivingMesh, 2, [0, 1], 0);
    assert dw[0] == 11.0 && dw[1] == 9.0;
    assert dw == [dw[0], dw[1]];
  }

  lemma OffsetSceneTargetRow()
    ensures DeltaRow(OffsetScene(), ManhattanDistance, TargetMesh, 2, [0, 1], 0) == [0.0, 20.0]
  {
    OffsetSceneTargetSums();
    var dt := DeltaRow(OffsetScene(), ManhattanDistance, TargetMesh, 2, [0, 1], 0);
    assert dt[0] == 0.0 && dt[1] == 20.0;
    assert dt == [dt[0], dt[1]];
  }

  lemma FramesZeroToOne()
    ensures Frames(0, 1, 1) == [0, 1]
  {
    UnitRangeLength(0, 2);
    var fs := Frames(0, 1, 1);
    assert fs == [fs[0], fs[1]];
  }

  /**
   skinning.py:252 reads the reference points from the driving mesh. With a
   separate target and two sampled frames, influence 0 reproduces the target
   on both, yet the reading as written totals 11 for it and 9 for influence 1
   (whose own pose serves as the reference on the second frame) and so picks
   influence 1; reading the target totals 0 and 20 and picks influence 0.
   */
  lemma DrivingMeshReadPicksWrongInfluence()
    ensures Frames(0, 1, 1) == [0, 1]
    ensures DeltaRow(OffsetScene(), ManhattanDistance, DrivingMesh, 2, [0, 1], 0) == [11.0, 9.0]
    ensures ArgMinFirst(DeltaRow(OffsetScene(), ManhattanDistance, DrivingMesh, 2, [0, 1], 0)) == 1
    ensures DeltaRow(OffsetScene(), ManhattanDistance, TargetMesh, 2, [0, 1], 0) == [0.0, 20.0]
    ensures ArgMinFirst(DeltaRow(OffsetScene(), ManhattanDistance, TargetMesh, 2, [0, 1], 0)) == 0
  {
    FramesZeroToOne();
    OffsetSceneDrivingRow();
    OffsetSceneTargetRow();
    TwoEntryArgMin([11.0, 9.0]);
    TwoEntryArgMin([0.0, 20.0]);
  }

  /** Python list slice assignment `a[lo:hi] = x`: bounds clamp to the list, and `x` may be longer or shorter. */
  function PySliceAssign(a: seq<real>, lo: nat, hi: nat, x: seq<real>): (r: seq<real>)
    ensures lo <= hi <= |a| ==> |r| == |a| - (hi - lo) + |x|
  {
    var l := if lo > |a| then |a| else lo;
    var h := if hi < l then l else if hi > |a| then |a| else hi;
    a[..l] + x + a[h..]
  }

  /** Python's `list * n`. */
  function Repeat(s: seq<real>, n: nat): (r: seq<real>)
    ensures |r| == |s| * n
  {
    if n == 0 then [] else s + Repeat(s, n - 1)
  }

  /**
   skinning.py:271-274 as written: vertex after vertex, the `stride`-long
   slice at `vtx * stride` is replaced by `preweights[idx] * numVerts`, a
   list `stride * numVerts` long.
   */
  function AssignRowsAsWritten(w: seq<real>, choices: seq<nat>, numVerts: nat, stride: nat, vtx: nat): seq<real>
    requires |choices| == numVerts
    decreases numVerts - vtx
  {
    if vtx >= numVerts then w
    else
      var written := PySliceAssign(w, vtx * stride, vtx * stride + stride, Repeat(OneHot(stride, choices[vtx]), numVerts));
      AssignRowsAsWritten(written, choices, numVerts, stride, vtx + 1)
  }

  /**
   Two vertices, one influence, both choosing it: the table as written comes
   out four entries long instead of two, while the intended write keeps two.
   */
  lemma SliceWriteGrowsTable()
    ensures |AssignRowsAsWritten([1.0, 1.0], [0, 0], 2, 1, 0)| == 4
    ensures AssignRowsAsWritten([1.0, 1.0], [0, 0], 2, 1, 0) == [1.0, 1.0, 1.0, 1.0]
    ensures SelectRows([0, 0], 1) == [1.0, 1.0]
  {
    var row := Repeat(OneHot(1, 0), 2);
    assert OneHot(1, 0) == [1.0];
    assert row == [1.0, 1.0];
    var w1 := PySliceAssign([1.0, 1.0], 0, 1, row);
    assert w1 == [1.0, 1.0, 1.0];
    var w2 := PySliceAssign(w1, 1, 2, row);
    assert w2 == [1.0, 1.0, 1.0, 1.0];
    assert AssignRowsAsWritten(w2, [0, 0], 2, 1, 2) == w2;
    assert AssignRowsAsWritten(w1, [0, 0], 2, 1, 1) == w2;
    var sel := SelectRows([0, 0], 1);
    assert Row(sel, 2, 1, 0) == [1.0];
    assert Row(sel, 2, 1, 1) == [1.0];
    assert sel == [sel[0], sel[1]];
  }
}

=== FILE: strided.dfy ===
/**
 Flat, strided weight tables. The host returns a skin cluster's weights as one
 flat array holding `stride` influence weights per vertex, vertex after vertex;
 this module cuts such an array into per-vertex rows and glues rows back, and
 defines the one-hot rows and the first-maximum / first-minimum selections
 that the simplification strategies write and use.
 */
module Strided {

  /** Vertex `v`'s row ends inside a table of `n` rows of `stride` entries. */
  lemma RowFits(v: nat, n: nat, stride: nat)
    requires v < n
    ensures v * stride + stride <= n * stride
  {
    assert v * stride + stride == (v + 1) * stride;
  }

  /** The `stride` weights of vertex `v`: `weights[v*stride : v*stride + stride]`. */
  function Row(w: seq<real>, n: nat, stride: nat, v: nat): (r: seq<real>)
    requires |w| == n * stride && v < n
    ensures |r| == stride
    ensures forall i :: 0 <= i < stride ==> v * stride + i < |w| && r[i] == w[v * stride + i]
  {
    var lo := v * stride;
    RowFits(v, n, stride);
    w[lo .. lo + stride]
  }

  /** All rows of a table, in vertex order. */
  function Rows(w: seq<real>, n: nat, stride: nat): (rows: seq<seq<real>>)
    requires |w| == n * stride
    ensures |rows| == n
    ensures forall v :: 0 <= v < n ==> rows[v] == Row(w, n, stride, v)
  {
    seq(n, v requires 0 <= v < n => Row(w, n, stride, v))
  }

  /** Concatenation of rows, first row first. */
  function Flatten(rows: seq<seq<real>>): seq<real>
  {
    if |rows| == 0 then [] else rows[0] + Flatten(rows[1..])
  }

  ghost predicate Uniform(rows: seq<seq<real>>, stride: nat) {
    forall v :: 0 <= v < |rows| ==> |rows[v]| == stride
  }

  lemma {:induction false} FlattenLength(rows: seq<seq<real>>, stride: nat)
    requires Uniform(rows, stride)
    ensures |Flatten(rows)| == |rows| * stride
    decreases |rows|
  {
    if |rows| > 0 {
      FlattenLength(rows[1..], stride);
      MulSucc(|rows| - 1, stride);
    }
  }

  lemma MulSucc(a: nat, b: nat)
    ensures (a + 1) * b == b + a * b
  {
  }

  /** Entry `i` of row `v` sits at `v * stride + i` of the flattened table. */
  lemma {:induction false} FlattenAt(rows: seq<seq<real>>, stride: nat, v: nat, i: nat)
    requires Uniform(rows, stride)
    requires v < |rows| && i < stride
    ensures v * stride + i < |Flatten(rows)|
    ensures Flatten(rows)[v * stride + i] == rows[v][i]
    decreases v
  {
    FlattenLength(rows, stride);
    RowFits(v, |rows|, stride);
    if v > 0 {
      var tail := rows[1..];
      FlattenAt(tail, stride, v - 1, i);
      MulSucc(v - 1, stride);
      assert Flatten(rows) == rows[0] + Flatten(tail);
    }
  }

  /** Cutting a flattened table gives the rows back. */
  lemma RowsOfFlatten(rows: seq<seq<real>>, stride: nat)
    requires Uniform(rows, stride)
    ensures |Flatten(rows)| == |rows| * stride
    ensures forall v :: 0 <= v < |rows| ==> Row(Flatten(rows), |rows|, stride, v) == rows[v]
  {
    FlattenLength(rows, stride);
    forall v | 0 <= v < |rows|
      ensures Row(Flatten(rows), |rows|, stride, v) == rows[v]
    {
      var r := Row(Flatten(rows), |rows|, stride, v);
      forall i | 0 <= i < stride
        ensures r[i] == rows[v][i]
      {
        FlattenAt(rows, stride, v, i);
      }
    }
  }

  /** Dropping a table's first row shifts every later row down by one. */
  lemma RowOfTail(w: seq<real>, n: nat, stride: nat, v: nat)
    requires |w| == n * stride && v + 1 < n
    ensures stride <= |w| && |w[stride..]| == (n - 1) * stride
    ensures Row(w, n, stride, v + 1) == Row(w[stride..], n - 1, stride, v)
  {
    MulSucc(n - 1, stride);
    MulSucc(v, stride);
    var a := Row(w, n, stride, v + 1);
    var b := Row(w[stride..], n - 1, stride, v);
    assert forall i :: 0 <= i < stride ==> a[i] == b[i];
  }

  /** A table's rows are its first row followed by the rows of the rest. */
  lemma RowsSplit(w: seq<real>, n: nat, stride: nat)
    requires |w| == n * stride && n > 0
    ensures stride <= |w| && |w[stride..]| == (n - 1) * stride
    ensures Rows(w, n, stride) == [w[..stride]] + Rows(w[stride..], n - 1, stride)
  {
    MulSucc(n - 1, stride);
    var rows := Rows(w, n, stride);
    var tail := w[stride..];
    forall v | 0 <= v < n - 1
      ensures rows[1..][v] == Rows(tail, n - 1, stride)[v]
    {
      RowOfTail(w, n, stride, v);
    }
    assert rows[1..] == Rows(tail, n - 1, stride);
    assert rows[0] == w[..stride];
  }

  /** Gluing a table's rows back together gives the table. */
  lemma {:induction false} FlattenRows(w: seq<real>, n: nat, stride: nat)
    requires |w| == n * stride
    ensures Flatten(Rows(w, n, stride)) == w
    decreases n
  {
    if n > 0 {
      RowsSplit(w, n, stride);
      var rows := Rows(w, n, stride);
      assert rows[1..] == Rows(w[stride..], n - 1, stride);
      FlattenRows(w[stride..], n - 1, stride);
      assert w == w[..stride] + w[stride..];
    }
  }

  /** A row with 1.0 at `k` and 0.0 everywhere else. */
  ghost predicate OneHotAt(row: seq<real>, k: int) {
    0 <= k < |row| && forall j :: 0 <= j < |row| ==> row[j] == if j == k then 1.0 else 0.0
  }

  /** `[float(x == k) for x in range(stride)]`. */
  function OneHot(stride: nat, k: nat): (r: seq<real>)
    ensures |r| == stride
    ensures k < stride ==> OneHotAt(r, k)
  {
    seq(stride, j => if j == k then 1.0 else 0.0)
  }

  /** The pattern table built once before the frame loop: row i is one-hot at i. */
  function Preweights(stride: nat): (p: seq<seq<real>>)
    ensures |p| == stride
  {
    seq(stride, i requires 0 <= i < stride => OneHot(stride, i))
  }

  function Sum(row: seq<real>): real {
    if |row| == 0 then 0.0 else Sum(row[..|row| - 1]) + row[|row| - 1]
  }

  /** A one-hot row carries total weight 1.0 and has exactly one entry equal to 1.0. */
  lemma {:induction false} OneHotSumsToOne(row: seq<real>, k: nat)
    requires OneHotAt(row, k)
    ensures Sum(row) == 1.0
    ensures forall j :: 0 <= j < |row| && row[j] == 1.0 ==> j == k
  {
    ZerosBeforeSum(row, k);
    assert row[..k + 1][..k] == row[..k];
    TailSum(row, k + 1);
  }

  lemma {:induction false} ZerosBeforeSum(row: seq<real>, m: nat)
    requires m <= |row|
    requires forall j :: 0 <= j < m ==> row[j] == 0.0
    ensures Sum(row[..m]) == 0.0
    decreases m
  {
    if m > 0 {
      assert row[..m][..m - 1] == row[..m - 1];
      ZerosBeforeSum(row, m - 1);
    }
  }

  lemma {:induction false} TailSum(row: seq<real>, m: nat)
    requires m <= |row|
    requires Sum(row[..m]) == 1.0
    requires forall j :: m <= j < |row| ==> row[j] == 0.0
    ensures Sum(row) == 1.0
    decreases |row| - m
  {
    if m < |row| {
      assert row[..m + 1][..m] == row[..m];
      TailSum(row, m + 1);
    } else {
      assert row[..m] == row;
    }
  }

  /** `k` is where `max(enumerate(row), key=...)` lands: a maximum, and no earlier entry reaches it. */
  ghost predicate IsFirstMax(row: seq<real>, k: int) {
    && 0 <= k < |row|
    && (forall j :: 0 <= j < |row| ==> row[j] <= row[k])
    && (forall j :: 0 <= j < k ==> row[j] < row[k])
  }

  /** `k` is where `min(enumerate(row), key=...)` lands: a minimum, and no earlier entry reaches it. */
  ghost predicate IsFirstMin(row: seq<real>, k: int) {
    && 0 <= k < |row|
    && (forall j :: 0 <= j < |row| ==> row[k] <= row[j])
    && (forall j :: 0 <= j < k ==> row[k] < row[j])
  }

  /**
   Python's `max` over `enumerate(row)` keyed on the weight: scans left to right
   and replaces the current best only on a strictly larger weight.
   */
  function ArgMaxFirst(row: seq<real>): (k: nat)
    requires |row| > 0
    ensures IsFirstMax(row, k)
  {
    if |row| == 1 then 0
    else
      var best := ArgMaxFirst(row[..|row| - 1]);
      if row[|row| - 1] > row[best] then |row| - 1 else best
  }

  /** Python's `min` over `enumerate(row)` keyed on the value, keeping the first minimum. */
  function ArgMinFirst(row: seq<real>): (k: nat)
    requires |row| > 0
    ensures IsFirstMin(row, k)
  {
    if |row| == 1 then 0
    else
      var best := ArgMinFirst(row[..|row| - 1]);
      if row[|row| - 1] < row[best] then |row| - 1 else best
  }

  /** The first-maximum index is the only index with the first-maximum property. */
  lemma FirstMaxUnique(row: seq<real>, k: int)
    requires |row| > 0
    ensures IsFirstMax(row, k) <==> k == ArgMaxFirst(row)
  {
  }

  /** The first-minimum index is the only index with the first-minimum property. */
  lemma FirstMinUnique(row: seq<real>, k: int)
    requires |row| > 0
    ensures IsFirstMin(row, k) <==> k == ArgMinFirst(row)
  {
  }
}

=== FILE: train.dfy ===
/**
 The shaping that `train` does around the learning itself: the layer plan of
 `get_model`, the de-duplication of a joint's CSV rows on the joint columns,
 the split into joint (rotation, translation) and vertex columns, min–max
 normalisation of the translation and vertex columns, and the one-entry-per-CSV
 `models` list, with `None` for a CSV that cannot be trained on.
 */
module Train {
  import opened Common

  // ---------------------------------------------------------------------------
  // get_model

  /** A `Dense` layer as `get_model` configures it; `inputDim` is `None` when no `input_dim` is passed. */
  datatype Layer = Dense(units: nat, inputDim: Option<nat>, activation: string, name: string)

  /** `layers` after `get_model` enforces its minimum of two. */
  function LayerCount(layers: int): (count: nat)
    ensures count >= 2
    ensures layers >= 2 ==> count == layers
  {
    if layers < 2 then 2 else layers
  }

  /** The name given to layer `n` of `count`. */
  function LayerName(n: nat, count: nat): string {
    if n == 0 then "input_node"
    else if n == count - 1 then "output_node"
    else "dense_layer_" + NatToString(n)
  }

  /** Layer `n` of `count`, as the loop at train.py:47-64 adds it. */
  function PlannedLayer(n: nat, count: nat, jointCols: nat, vertCols: nat, activation: string,
                        units: nat, inputDim: nat): Layer
  {
    if n == 0 then Dense(units, Some(jointCols), activation, LayerName(n, count))
    else if n == count - 1 then Dense(vertCols, None, "linear", LayerName(n, count))
    else Dense(units, Some(inputDim), activation, LayerName(n, count))
  }

  /** The layer plan and input node name returned by `get_model`; the output node name is the framework's. */
  datatype ModelPlan = ModelPlan(layers: seq<Layer>, inputNode: string)

  function GetModel(jointCols: nat, vertCols: nat, layers: int, activation: string, units: nat,
                    inputDim: nat): (plan: ModelPlan)
    ensures |plan.layers| == LayerCount(layers)
    ensures plan.layers[0] == Dense(units, Some(jointCols), activation, "input_node")
    ensures plan.layers[|plan.layers| - 1] == Dense(vertCols, None, "linear", "output_node")
    ensures forall n :: 0 < n < |plan.layers| - 1 ==>
              plan.layers[n] == Dense(units, Some(inputDim), activation, "dense_layer_" + NatToString(n))
    ensures plan.inputNode == "input_node_input:0"
  {
    var count := LayerCount(layers);
    ModelPlan(seq(count, n requires 0 <= n < count => PlannedLayer(n, count, jointCols, vertCols, activation, units, inputDim)),
              "input_node" + "_input:0")
  }

  lemma DenseNameNotIO(n: nat)
    ensures "dense_layer_" + NatToString(n) != "input_node"
    ensures "dense_layer_" + NatToString(n) != "output_node"
  {
    var s := "dense_layer_" + NatToString(n);
    assert s[0] == 'd';
  }

  lemma DenseNamesDistinct(a: nat, b: nat)
    ensures "dense_layer_" + NatToString(a) == "dense_layer_" + NatToString(b) ==> a == b
  {
    var sa, sb := NatToString(a), NatToString(b);
    assert ("dense_layer_" + sa)[12..] == sa;
    assert ("dense_layer_" + sb)[12..] == sb;
    NatToStringInjective(a, b);
  }

  /** Every layer of the plan gets its own name, as the framework requires. */
  lemma LayerNamesDistinct(jointCols: nat, vertCols: nat, layers: int, activation: string, units: nat, inputDim: nat)
    ensures var ls := GetModel(jointCols, vertCols, layers, activation, units, inputDim).layers;
            forall a, b :: 0 <= a < b < |ls| ==> ls[a].name != ls[b].name
  {
    var ls := GetModel(jointCols, vertCols, layers, activation, units, inputDim).layers;
    forall a, b | 0 <= a < b < |ls|
      ensures ls[a].name != ls[b].name
    {
      if 0 < a && b < |ls| - 1 {
        DenseNamesDistinct(a, b);
      } else if 0 < a {
        DenseNameNotIO(a);
      } else if b < |ls| - 1 {
        DenseNameNotIO(b);
      }
    }
  }

  // ---------------------------------------------------------------------------
  // Tables and drop_duplicates

  /** Every row has `width` cells. */
  predicate Rectangular(rows: seq<seq<real>>, width: nat) {
    forall r :: 0 <= r < |rows| ==> |rows[r]| == width
  }

  /** The values of the joint columns, the first `k` columns of a CSV as `write` lays it out. */
  function Key(row: seq<real>, k: nat): seq<real>
    requires k <= |row|
  {
    row[..k]
  }

  /** No earlier row has the same joint-column values. */
  predicate IsFirstOccurrence(rows: seq<seq<real>>, k: nat, p: nat)
    requires p < |rows| && forall r :: 0 <= r < |rows| ==> k <= |rows[r]|
  {
    forall q :: 0 <= q < p ==> Key(rows[q], k) != Key(rows[p], k)
  }

  /** `drop_duplicates(joint_columns)` over the first `n` rows: the first row of each key, in order. */
  function DropDuplicates(rows: seq<seq<real>>, k: nat, n: nat): (kept: seq<seq<real>>)
    requires n <= |rows| && forall r :: 0 <= r < |rows| ==> k <= |rows[r]|
    ensures |kept| <= n
    ensures forall r :: 0 <= r < |kept| ==> kept[r] in rows[..n]
  {
    if n == 0 then []
    else
      var front := DropDuplicates(rows, k, n - 1);
      assert rows[..n - 1] <= rows[..n];
      front + (if IsFirstOccurrence(rows, k, n - 1) then [rows[n - 1]] else [])
  }

  /** A kept row is some first occurrence among the first `n` rows. */
  ghost predicate FirstOccurrenceRow(rows: seq<seq<real>>, k: nat, n: nat, row: seq<real>)
    requires n <= |rows| && forall r :: 0 <= r < |rows| ==> k <= |rows[r]|
  {
    exists p :: 0 <= p < n && IsFirstOccurrence(rows, k, p) && row == rows[p]
  }

  /** One step of `DropDuplicatesKeepsFirst`: appending row `n - 1` when it is a first occurrence. */
  lemma KeepsFirstStep(rows: seq<seq<real>>, k: nat, n: nat, front: seq<seq<real>>, kept: seq<seq<real>>)
    requires 0 < n <= |rows| && forall r :: 0 <= r < |rows| ==> k <= |rows[r]|
    requires kept == front + (if IsFirstOccurrence(rows, k, n - 1) then [rows[n - 1]] else [])
    requires forall j :: 0 <= j < |front| ==> FirstOccurrenceRow(rows, k, n - 1, front[j])
    requires forall p :: 0 <= p < n - 1 && IsFirstOccurrence(rows, k, p) ==> rows[p] in front
    ensures forall j :: 0 <= j < |kept| ==> FirstOccurrenceRow(rows, k, n, kept[j])
    ensures forall p :: 0 <= p < n && IsFirstOccurrence(rows, k, p) ==> rows[p] in kept
  {
    forall j | 0 <= j < |kept|
      ensures FirstOccurrenceRow(rows, k, n, kept[j])
    {
      if j < |front| {
        assert kept[j] == front[j];
        var p :| 0 <= p < n - 1 && IsFirstOccurrence(rows, k, p) && front[j] == rows[p];
      } else {
        assert kept[j] == rows[n - 1];
      }
    }
    forall p | 0 <= p < n && IsFirstOccurrence(rows, k, p)
      ensures rows[p] in kept
    {
      if p < n - 1 {
        assert rows[p] in front;
      } else {
        assert kept[|kept| - 1] == rows[p];
      }
    }
  }

  /**
   Which duplicate survives: every kept row is the first row with its key
   (`keep='first'`), and every such first row is kept.
   */
  lemma {:induction false} DropDuplicatesKeepsFirst(rows: seq<seq<real>>, k: nat, n: nat)
    requires n <= |rows| && forall r :: 0 <= r < |rows| ==> k <= |rows[r]|
    ensures forall j :: 0 <= j < |DropDuplicates(rows, k, n)| ==> FirstOccurrenceRow(rows, k, n, DropDuplicates(rows, k, n)[j])
    ensures forall p :: 0 <= p < n && IsFirstOccurrence(rows, k, p) ==> rows[p] in DropDuplicates(rows, k, n)
  {
    if n > 0 {
      DropDuplicatesKeepsFirst(rows, k, n - 1);
      KeepsFirstStep(rows, k, n, DropDuplicates(rows, k, n - 1), DropDuplicates(rows, k, n));
    }
  }

  /** The kept rows are the input rows with some deleted and none reordered. */
  lemma {:induction false} DropDuplicatesKeepsOrder(rows: seq<seq<real>>, k: nat, n: nat)
    requires n <= |rows| && forall r :: 0 <= r < |rows| ==> k <= |rows[r]|
    ensures IsSubsequence(DropDuplicates(rows, k, n), rows[..n])
    decreases n
  {
    if n > 0 {
      DropDuplicatesKeepsOrder(rows, k, n - 1);
      var front := DropDuplicates(rows, k, n - 1);
      assert rows[..n] == rows[..n - 1] + [rows[n - 1]];
      if IsFirstOccurrence(rows, k, n - 1) {
        SubsequenceAppendBoth(front, rows[..n - 1], rows[n - 1]);
      } else {
        SubsequenceAppendRight(front, rows[..n - 1], rows[n - 1]);
        assert DropDuplicates(rows, k, n) == front;
      }
    }
  }

  /** Some row of `rows` has joint-column values `key`. */
  ghost predicate HasKey(rows: seq<seq<real>>, k: nat, key: seq<real>)
    requires forall r :: 0 <= r < |rows| ==> k <= |rows[r]|
  {
    exists r :: 0 <= r < |rows| && Key(rows[r], k) == key
  }

  /** No two rows share joint-column values. */
  ghost predicate DistinctKeys(rows: seq<seq<real>>, k: nat)
    requires forall r :: 0 <= r < |rows| ==> k <= |rows[r]|
  {
    forall a, b :: 0 <= a < b < |rows| ==> Key(rows[a], k) != Key(rows[b], k)
  }

  /** After de-duplication no two rows share joint-column values. */
  lemma {:induction false} DropDuplicatesDistinctKeys(rows: seq<seq<real>>, k: nat, n: nat)
    requires n <= |rows| && forall r :: 0 <= r < |rows| ==> k <= |rows[r]|
    ensures DistinctKeys(DropDuplicates(rows, k, n), k)
    decreases n
  {
    if n > 0 {
      DropDuplicatesDistinctKeys(rows, k, n - 1);
      var front := DropDuplicates(rows, k, n - 1);
      var kept := DropDuplicates(rows, k, n);
      if IsFirstOccurrence(rows, k, n - 1) {
        assert kept == front + [rows[n - 1]];
        forall a, b | 0 <= a < b < |kept|
          ensures Key(kept[a], k) != Key(kept[b], k)
        {
          assert kept[a] == front[a];
          if b < |front| {
            assert kept[b] == front[b];
          } else {
            assert kept[a] in rows[..n - 1];
            var q :| 0 <= q < n - 1 && rows[..n - 1][q] == kept[a];
            assert Key(rows[q], k) != Key(rows[n - 1], k);
          }
        }
      } else {
        assert kept == front;
      }
    }
  }

  /** A key found among some rows is still found once more rows are appended. */
  lemma HasKeyExtended(front: seq<seq<real>>, kept: seq<seq<real>>, k: nat, key: seq<real>)
    requires front <= kept && forall r :: 0 <= r < |kept| ==> k <= |kept[r]|
    requires HasKey(front, k, key)
    ensures HasKey(kept, k, key)
  {
    var r :| 0 <= r < |front| && Key(front[r], k) == key;
    assert kept[r] == front[r];
  }

  /** One step of `DropDuplicatesCoversKeys`: keys found among `n - 1` rows stay found among `n`. */
  lemma CoversKeysStep(rows: seq<seq<real>>, k: nat, n: nat, q: nat)
    requires 0 < n <= |rows| && forall r :: 0 <= r < |rows| ==> k <= |rows[r]|
    requires forall p :: 0 <= p < n - 1 ==> HasKey(DropDuplicates(rows, k, n - 1), k, Key(rows[p], k))
    requires q < n
    ensures HasKey(DropDuplicates(rows, k, n), k, Key(rows[q], k))
  {
    var front := DropDuplicates(rows, k, n - 1);
    var kept := DropDuplicates(rows, k, n);
    assert front <= kept;
    if q < n - 1 {
      HasKeyExtended(front, kept, k, Key(rows[q], k));
    } else if IsFirstOccurrence(rows, k, n - 1) {
      assert kept[|front|] == rows[n - 1];
    } else {
      var p :| 0 <= p < n - 1 && Key(rows[p], k) == Key(rows[n - 1], k);
      HasKeyExtended(front, kept, k, Key(rows[p], k));
    }
  }

  /** De-duplication loses no joint-column values: every input key is still present. */
  lemma {:induction false} DropDuplicatesCoversKeys(rows: seq<seq<real>>, k: nat, n: nat)
    requires n <= |rows| && forall r :: 0 <= r < |rows| ==> k <= |rows[r]|
    ensures forall q :: 0 <= q < n ==> HasKey(DropDuplicates(rows, k, n), k, Key(rows[q], k))
    decreases n
  {
    if n > 0 {
      DropDuplicatesCoversKeys(rows, k, n - 1);
      forall q: nat | q < n
        ensures HasKey(DropDuplicates(rows, k, n), k, Key(rows[q], k))
      {
        CoversKeysStep(rows, k, n, q);
      }
    }
  }

  /** Rows are dropped only as repeats, so a non-empty CSV keeps at least its first row. */
  lemma {:induction false} DropDuplicatesEmpty(rows: seq<seq<real>>, k: nat, n: nat)
    requires n <= |rows| && forall r :: 0 <= r < |rows| ==> k <= |rows[r]|
    ensures |DropDuplicates(rows, k, n)| == 0 <==> n == 0
    decreases n
  {
    if n > 1 {
      DropDuplicatesEmpty(rows, k, n - 1);
    } else if n == 1 {
      assert IsFirstOccurrence(rows, k, 0);
    }
  }

  /** Running `drop_duplicates` on its own output keeps every row. */
  lemma DropDuplicatesIdempotent(rows: seq<seq<real>>, k: nat)
    requires forall r :: 0 <= r < |rows| ==> k <= |rows[r]|
    ensures var kept := DropDuplicates(rows, k, |rows|);
            (forall r :: 0 <= r < |kept| ==> k <= |kept[r]|) &&
            DropDuplicates(kept, k, |kept|) == kept
  {
    var kept := DropDuplicates(rows, k, |rows|);
    assert rows[..|rows|] == rows;
    DropDuplicatesDistinctKeys(rows, k, |rows|);
    DistinctKeysKept(kept, k, |kept|);
  }

  lemma {:induction false} DistinctKeysKept(rows: seq<seq<real>>, k: nat, n: nat)
    requires n <= |rows| && forall r :: 0 <= r < |rows| ==> k <= |rows[r]|
    requires DistinctKeys(rows, k)
    ensures DropDuplicates(rows, k, n) == rows[..n]
    decreases n
  {
    if n > 0 {
      DistinctKeysKept(rows, k, n - 1);
      assert IsFirstOccurrence(rows, k, n - 1);
      assert rows[..n] == rows[..n - 1] + [rows[n - 1]];
    }
  }

  // ---------------------------------------------------------------------------
  // normalize_features

  /** Column `c` of a table. */
  function Column(m: seq<seq<real>>, c: nat): (col: seq<real>)
    requires forall r :: 0 <= r < |m| ==> c < |m[r]|
    ensures |col| == |m|
    ensures forall r :: 0 <= r < |m| ==> col[r] == m[r][c]
  {
    seq(|m|, r requires 0 <= r < |m| => m[r][c])
  }

  /** `Series.max()`. */
  function MaxOf(xs: seq<real>): (hi: real)
    requires |xs| > 0
    ensures hi in xs
    ensures forall i :: 0 <= i < |xs| ==> xs[i] <= hi
  {
    if |xs| == 1 then xs[0]
    else
      var front := MaxOf(xs[..|xs| - 1]);
      assert front in xs;
      if xs[|xs| - 1] > front then xs[|xs| - 1] else front
  }

  /** `Series.min()`. */
  function MinOf(xs: seq<real>): (lo: real)
    requires |xs| > 0
    ensures lo in xs
    ensures forall i :: 0 <= i < |xs| ==> lo <= xs[i]
  {
    if |xs| == 1 then xs[0]
    else
      var front := MinOf(xs[..|xs| - 1]);
      assert front in xs;
      if xs[|xs| - 1] < front then xs[|xs| - 1] else front
  }

  /**
   `(x - min) / (max - min)` followed by `fillna(0)`. On a column whose
   extremes agree every cell equals the minimum, so the quotient is 0/0 and
   becomes 0.
   */
  function NormalizeCell(x: real, lo: real, hi: real): real {
    if hi == lo then 0.0 else (x - lo) / (hi - lo)
  }

  /** A value between the column's extremes lands in [0, 1]; the extremes land on 0 and 1. */
  lemma NormalizeCellRange(x: real, lo: real, hi: real)
    requires lo <= x <= hi
    ensures 0.0 <= NormalizeCell(x, lo, hi) <= 1.0
    ensures lo < hi && x == lo ==> NormalizeCell(x, lo, hi) == 0.0
    ensures lo < hi && x == hi ==> NormalizeCell(x, lo, hi) == 1.0
  {
    if lo < hi {
      var d := hi - lo;
      var q := (x - lo) / d;
      assert q * d == x - lo;
      if q > 1.0 {
        assert q * d > 1.0 * d;
      }
      if q < 0.0 {
        assert q * d < 0.0;
      }
    }
  }

  /** The normalised table and the per-column maxima and minima that `normalize_features` returns. */
  datatype Normalized = Normalized(table: seq<seq<real>>, maxs: seq<real>, mins: seq<real>)

  function NormalizeFeatures(m: seq<seq<real>>, width: nat): (n: Normalized)
    requires |m| > 0 && Rectangular(m, width)
    ensures |n.maxs| == width && |n.mins| == width
    ensures forall c :: 0 <= c < width ==> n.maxs[c] in Column(m, c) && n.mins[c] in Column(m, c)
    ensures forall r, c :: 0 <= r < |m| && 0 <= c < width ==> n.mins[c] <= m[r][c] <= n.maxs[c]
    ensures |n.table| == |m| && Rectangular(n.table, width)
    ensures forall r, c :: 0 <= r < |m| && 0 <= c < width ==>
              n.table[r][c] == NormalizeCell(m[r][c], n.mins[c], n.maxs[c])
  {
    var maxs := seq(width, c requires 0 <= c < width => MaxOf(Column(m, c)));
    var mins := seq(width, c requires 0 <= c < width => MinOf(Column(m, c)));
    var table := seq(|m|, r requires 0 <= r < |m| =>
                   seq(width, c requires 0 <= c < width => NormalizeCell(m[r][c], mins[c], maxs[c])));
    Normalized(table, maxs, mins)
  }

  /** Every normalised cell lies in [0, 1]. */
  lemma NormalizedInUnitRange(m: seq<seq<real>>, width: nat)
    requires |m| > 0 && Rectangular(m, width)
    ensures var n := NormalizeFeatures(m, width);
            forall r, c :: 0 <= r < |m| && 0 <= c < width ==> 0.0 <= n.table[r][c] <= 1.0
  {
    var n := NormalizeFeatures(m, width);
    forall r, c | 0 <= r < |m| && 0 <= c < width
      ensures 0.0 <= n.table[r][c] <= 1.0
    {
      NormalizeCellRange(m[r][c], n.mins[c], n.maxs[c]);
    }
  }

  // ---------------------------------------------------------------------------
  // One CSV, and the models list

  /** A joint's CSV as read back: a header's worth of columns and rows of that width. */
  datatype Csv = Csv(width: nat, rows: seq<seq<real>>)

  datatype TrainError =
    | KeyError     // `drop_duplicates` names a joint column the CSV lacks
    | ValueError   // `drop_duplicates` on an empty column list unpacks no key columns

  /** The stored `model_data` of one trained joint, with the tables it was fitted on. */
  datatype ModelEntry = ModelEntry(
    plan: ModelPlan,
    inputs: seq<seq<real>>,       // rotation columns, then (normalised) translation columns
    outputs: seq<seq<real>>,      // (normalised) vertex columns
    normalized: bool,
    transMax: Option<seq<real>>,
    transMin: Option<seq<real>>,
    vertsMax: Option<seq<real>>,
    vertsMin: Option<seq<real>>)

  /** The training options `train` passes through. */
  datatype Options = Options(normalize: bool, layers: int, activation: string, units: nat, inputDim: nat)

  /** `joints.iloc[:, :-3]` keeps all but the last three joint columns. */
  function RotationWidth(k: nat): (rw: nat)
    ensures rw <= k
    ensures k >= 3 ==> rw == k - 3
  {
    if k >= 3 then k - 3 else 0
  }

  /** Columns `lo..hi` of every row. */
  function Slice(rows: seq<seq<real>>, lo: nat, hi: nat): (s: seq<seq<real>>)
    requires lo <= hi && forall r :: 0 <= r < |rows| ==> hi <= |rows[r]|
    ensures |s| == |rows| && Rectangular(s, hi - lo)
    ensures forall r :: 0 <= r < |rows| ==> s[r] == rows[r][lo..hi]
  {
    seq(|rows|, r requires 0 <= r < |rows| => rows[r][lo..hi])
  }

  /** `pandas.concat([rot, trans], axis=1)`. */
  function JoinColumns(a: seq<seq<real>>, b: seq<seq<real>>): (s: seq<seq<real>>)
    requires |a| == |b|
    ensures |s| == |a|
    ensures forall r :: 0 <= r < |a| ==> s[r] == a[r] + b[r]
  {
    seq(|a|, r requires 0 <= r < |a| => a[r] + b[r])
  }

  /** The rows `drop_duplicates` keeps still have the CSV's width. */
  lemma DropDuplicatesRectangular(rows: seq<seq<real>>, k: nat, n: nat, width: nat)
    requires n <= |rows| && Rectangular(rows, width) && k <= width
    ensures Rectangular(DropDuplicates(rows, k, n), width)
  {
    var kept := DropDuplicates(rows, k, n);
    forall r | 0 <= r < |kept|
      ensures |kept[r]| == width
    {
      assert kept[r] in rows[..n];
    }
  }

  /** The de-duplicated rows of a CSV that has all `k` joint columns. */
  function Kept(csv: Csv, k: nat): (kept: seq<seq<real>>)
    requires Rectangular(csv.rows, csv.width) && k <= csv.width
    ensures Rectangular(kept, csv.width)
  {
    DropDuplicatesRectangular(csv.rows, k, |csv.rows|, csv.width);
    DropDuplicates(csv.rows, k, |csv.rows|)
  }

  /**
   The entry fitted on de-duplicated rows: split the columns, normalise
   translation and vertex columns on request, and plan the network.
   */
  function BuildEntry(kept: seq<seq<real>>, k: nat, width: nat, opts: Options): ModelEntry
    requires |kept| > 0 && k < width && Rectangular(kept, width)
  {
    var rw := RotationWidth(k);
    var rot := Slice(kept, 0, rw);
    var trans := Slice(kept, rw, k);
    var verts := Slice(kept, k, width);
    var plan := GetModel(k, width - k, opts.layers, opts.activation, opts.units, opts.inputDim);
    if opts.normalize then
      var nt := NormalizeFeatures(trans, k - rw);
      var nv := NormalizeFeatures(verts, width - k);
      ModelEntry(plan, JoinColumns(rot, nt.table), nv.table, true,
                 Some(nt.maxs), Some(nt.mins), Some(nv.maxs), Some(nv.mins))
    else
      ModelEntry(plan, JoinColumns(rot, trans), verts, false, None, None, None, None)
  }

  /**
   One iteration of the loop over `csv_files`: de-duplicate on the `k` joint
   columns, give up with `None` when nothing or no vertex column is left, and
   otherwise build the entry.
   */
  function TrainCsv(csv: Csv, k: nat, opts: Options): (r: Result<Option<ModelEntry>, TrainError>)
    requires Rectangular(csv.rows, csv.width)
  {
    if csv.width < k then Failure(KeyError)
    else if k == 0 && |csv.rows| > 0 then Failure(ValueError)
    else
      var kept := Kept(csv, k);
      if |kept| == 0 || csv.width <= k then Success(None)
      else Success(Some(BuildEntry(kept, k, csv.width, opts)))
  }

  /**
   A CSV fails with KeyError when it lacks a joint column and with ValueError
   when there are no joint columns but there are rows; otherwise it yields
   `None` exactly when it has no rows or no vertex columns.
   */
  lemma TrainCsvOutcome(csv: Csv, k: nat, opts: Options)
    requires Rectangular(csv.rows, csv.width)
    ensures TrainCsv(csv, k, opts).Failure? <==> csv.width < k || (k == 0 && |csv.rows| > 0)
    ensures TrainCsv(csv, k, opts).Failure? ==>
              (TrainCsv(csv, k, opts).error == KeyError <==> csv.width < k)
    ensures TrainCsv(csv, k, opts).Success? ==>
              (TrainCsv(csv, k, opts).value.None? <==> |csv.rows| == 0 || csv.width <= k)
  {
    if csv.width >= k {
      DropDuplicatesEmpty(csv.rows, k, |csv.rows|);
    }
  }

  /** A trained entry is the one built from the CSV's de-duplicated rows. */
  lemma TrainCsvEntry(csv: Csv, k: nat, opts: Options)
    requires Rectangular(csv.rows, csv.width)
    requires TrainCsv(csv, k, opts).Success? && TrainCsv(csv, k, opts).value.Some?
    ensures k < csv.width && |Kept(csv, k)| > 0
    ensures TrainCsv(csv, k, opts).value.value == BuildEntry(Kept(csv, k), k, csv.width, opts)
  {
  }

  /** Column layout of a built entry; see `TrainCsvColumns`. */
  lemma BuildEntryColumns(kept: seq<seq<real>>, k: nat, width: nat, opts: Options)
    requires |kept| > 0 && k < width && Rectangular(kept, width)
    ensures var e := BuildEntry(kept, k, width, opts);
            && e.normalized == opts.normalize
            && |e.inputs| == |kept| && |e.outputs| == |kept|
            && Rectangular(e.inputs, k) && Rectangular(e.outputs, width - k)
            && (forall r, c :: 0 <= r < |kept| && 0 <= c < RotationWidth(k) ==> e.inputs[r][c] == kept[r][c])
            && e.plan.layers[0].inputDim == Some(k)
            && e.plan.layers[|e.plan.layers| - 1].units == width - k
  {
  }

  /**
   A trained entry is fitted on the de-duplicated rows: `k` input columns
   whose leading rotation columns are copied, and the remaining vertex
   columns as outputs; the network takes `k` inputs and gives one output per
   vertex column.
   */
  lemma TrainCsvColumns(csv: Csv, k: nat, opts: Options)
    requires Rectangular(csv.rows, csv.width)
    requires TrainCsv(csv, k, opts).Success? && TrainCsv(csv, k, opts).value.Some?
    ensures k < csv.width
    ensures var e := TrainCsv(csv, k, opts).value.value;
            var kept := Kept(csv, k);
            && e.normalized == opts.normalize
            && |e.inputs| == |kept| && |e.outputs| == |kept|
            && Rectangular(e.inputs, k) && Rectangular(e.outputs, csv.width - k)
            && (forall r, c :: 0 <= r < |kept| && 0 <= c < RotationWidth(k) ==> e.inputs[r][c] == kept[r][c])
            && e.plan.layers[0].inputDim == Some(k)
            && e.plan.layers[|e.plan.layers| - 1].units == csv.width - k
  {
    TrainCsvEntry(csv, k, opts);
    BuildEntryColumns(Kept(csv, k), k, csv.width, opts);
  }

  /** Without normalisation a built entry splits the rows as they are; see `TrainCsvRaw`. */
  lemma BuildEntryRaw(kept: seq<seq<real>>, k: nat, width: nat, opts: Options)
    requires |kept| > 0 && k < width && Rectangular(kept, width)
    requires !opts.normalize
    ensures var e := BuildEntry(kept, k, width, opts);
            && |e.inputs| == |kept| && |e.outputs| == |kept|
            && (forall r :: 0 <= r < |kept| ==> e.inputs[r] + e.outputs[r] == kept[r])
            && e.transMax.None? && e.transMin.None? && e.vertsMax.None? && e.vertsMin.None?
  {
    var e := BuildEntry(kept, k, width, opts);
    var rw := RotationWidth(k);
    forall r | 0 <= r < |kept|
      ensures e.inputs[r] + e.outputs[r] == kept[r]
    {
      assert e.inputs[r] == kept[r][0..rw] + kept[r][rw..k];
      assert kept[r][0..rw] + kept[r][rw..k] == kept[r][..k];
      assert kept[r][..k] + kept[r][k..] == kept[r];
    }
  }

  /** Without normalisation the rows are split as they are and no extremes are stored. */
  lemma TrainCsvRaw(csv: Csv, k: nat, opts: Options)
    requires Rectangular(csv.rows, csv.width)
    requires !opts.normalize
    requires TrainCsv(csv, k, opts).Success? && TrainCsv(csv, k, opts).value.Some?
    ensures k <= csv.width
    ensures var e := TrainCsv(csv, k, opts).value.value;
            var kept := Kept(csv, k);
            && |e.inputs| == |kept| && |e.outputs| == |kept|
            && (forall r :: 0 <= r < |kept| ==> e.inputs[r] + e.outputs[r] == kept[r])
            && e.transMax.None? && e.transMin.None? && e.vertsMax.None? && e.vertsMin.None?
  {
    TrainCsvEntry(csv, k, opts);
    BuildEntryRaw(Kept(csv, k), k, csv.width, opts);
  }

  /** Normalising columns `lo..hi` of a table: each cell is the min–max image of the original cell, in [0, 1]. */
  lemma NormalizedSlice(rows: seq<seq<real>>, lo: nat, hi: nat)
    requires |rows| > 0 && lo <= hi && forall r :: 0 <= r < |rows| ==> hi <= |rows[r]|
    ensures var n := NormalizeFeatures(Slice(rows, lo, hi), hi - lo);
            forall r, c :: 0 <= r < |rows| && lo <= c < hi ==>
              n.mins[c - lo] <= rows[r][c] <= n.maxs[c - lo] &&
              n.table[r][c - lo] == NormalizeCell(rows[r][c], n.mins[c - lo], n.maxs[c - lo]) &&
              0.0 <= n.table[r][c - lo] <= 1.0
  {
    var s := Slice(rows, lo, hi);
    NormalizedInUnitRange(s, hi - lo);
    forall r, c | 0 <= r < |rows| && lo <= c < hi
      ensures s[r][c - lo] == rows[r][c]
    {
    }
  }

  lemma ConcatRight(a: seq<real>, b: seq<real>, c: nat)
    requires |a| <= c < |a| + |b|
    ensures (a + b)[c] == b[c - |a|]
  {
  }

  /**
   The entry's translation inputs are the min–max images of the rows'
   translation cells under the stored translation extremes, all in [0, 1].
   */
  ghost predicate TranslationNormalized(e: ModelEntry, rows: seq<seq<real>>, k: nat, width: nat)
    requires Rectangular(rows, width) && k <= width
  {
    var rw := RotationWidth(k);
    && e.transMax.Some? && e.transMin.Some?
    && |e.transMax.value| == k - rw && |e.transMin.value| == k - rw
    && |e.inputs| == |rows|
    && forall r, c :: 0 <= r < |rows| && rw <= c < k ==>
         |e.inputs[r]| == k &&
         e.inputs[r][c] == NormalizeCell(rows[r][c], e.transMin.value[c - rw], e.transMax.value[c - rw]) &&
         0.0 <= e.inputs[r][c] <= 1.0
  }

  /**
   The entry's vertex outputs are the min–max images of the rows' vertex
   cells under the stored vertex extremes, all in [0, 1].
   */
  ghost predicate VerticesNormalized(e: ModelEntry, rows: seq<seq<real>>, k: nat, width: nat)
    requires Rectangular(rows, width) && k <= width
  {
    && e.vertsMax.Some? && e.vertsMin.Some?
    && |e.vertsMax.value| == width - k && |e.vertsMin.value| == width - k
    && |e.outputs| == |rows|
    && (forall r :: 0 <= r < |rows| ==> |e.outputs[r]| == width - k)
    && forall r, c :: 0 <= r < |rows| && k <= c < width ==>
         e.vertsMin.value[c - k] <= rows[r][c] <= e.vertsMax.value[c - k] &&
         e.outputs[r][c - k] == NormalizeCell(rows[r][c], e.vertsMin.value[c - k], e.vertsMax.value[c - k]) &&
         0.0 <= e.outputs[r][c - k] <= 1.0
  }

  /** One cell of `VerticesNormalized`. */
  lemma VerticesNormalizedAt(e: ModelEntry, rows: seq<seq<real>>, k: nat, width: nat, r: nat, c: nat)
    requires Rectangular(rows, width) && k <= c < width && r < |rows|
    requires VerticesNormalized(e, rows, k, width)
    ensures r < |e.outputs| && |e.outputs[r]| == width - k
    ensures e.vertsMin.value[c - k] <= rows[r][c] <= e.vertsMax.value[c - k]
    ensures e.outputs[r][c - k] == NormalizeCell(rows[r][c], e.vertsMin.value[c - k], e.vertsMax.value[c - k])
  {
  }

  /** Rotation columns joined to normalised translation columns, cell by cell. */
  lemma JoinedNormalizedCells(rows: seq<seq<real>>, rw: nat, k: nat, width: nat)
    requires |rows| > 0 && Rectangular(rows, width) && rw <= k <= width
    ensures var nt := NormalizeFeatures(Slice(rows, rw, k), k - rw);
            var joined := JoinColumns(Slice(rows, 0, rw), nt.table);
            forall r, c :: 0 <= r < |rows| && rw <= c < k ==>
              |joined[r]| == k &&
              joined[r][c] == NormalizeCell(rows[r][c], nt.mins[c - rw], nt.maxs[c - rw]) &&
              0.0 <= joined[r][c] <= 1.0
  {
    var nt := NormalizeFeatures(Slice(rows, rw, k), k - rw);
    var rot := Slice(rows, 0, rw);
    var joined := JoinColumns(rot, nt.table);
    NormalizedSlice(rows, rw, k);
    forall r, c | 0 <= r < |rows| && rw <= c < k
      ensures joined[r][c] == nt.table[r][c - rw]
    {
      assert joined[r] == rot[r] + nt.table[r];
      ConcatRight(rot[r], nt.table[r], c);
    }
  }

  /** With normalisation a built entry's translation inputs are normalised; see `TrainCsvNormalizedInputs`. */
  lemma BuildEntryNormalizedInputs(kept: seq<seq<real>>, k: nat, width: nat, opts: Options)
    requires |kept| > 0 && k < width && Rectangular(kept, width)
    requires opts.normalize
    ensures TranslationNormalized(BuildEntry(kept, k, width, opts), kept, k, width)
  {
    JoinedNormalizedCells(kept, RotationWidth(k), k, width);
  }

  /** With normalisation the translation columns are normalised against their own extremes. */
  lemma TrainCsvNormalizedInputs(csv: Csv, k: nat, opts: Options)
    requires Rectangular(csv.rows, csv.width)
    requires opts.normalize
    requires TrainCsv(csv, k, opts).Success? && TrainCsv(csv, k, opts).value.Some?
    ensures k < csv.width
    ensures TranslationNormalized(TrainCsv(csv, k, opts).value.value, Kept(csv, k), k, csv.width)
  {
    TrainCsvEntry(csv, k, opts);
    BuildEntryNormalizedInputs(Kept(csv, k), k, csv.width, opts);
  }

  /** With normalisation a built entry's vertex outputs are normalised; see `TrainCsvNormalizedOutputs`. */
  lemma BuildEntryNormalizedOutputs(kept: seq<seq<real>>, k: nat, width: nat, opts: Options)
    requires |kept| > 0 && k < width && Rectangular(kept, width)
    requires opts.normalize
    ensures VerticesNormalized(BuildEntry(kept, k, width, opts), kept, k, width)
  {
    NormalizedSlice(kept, k, width);
  }

  /**
   With normalisation every vertex cell is the min–max image of the
   de-duplicated cell under the stored vertex extremes, and lies in [0, 1].
   */
  lemma TrainCsvNormalizedOutputs(csv: Csv, k: nat, opts: Options)
    requires Rectangular(csv.rows, csv.width)
    requires opts.normalize
    requires TrainCsv(csv, k, opts).Success? && TrainCsv(csv, k, opts).value.Some?
    ensures k < csv.width
    ensures VerticesNormalized(TrainCsv(csv, k, opts).value.value, Kept(csv, k), k, csv.width)
  {
    TrainCsvEntry(csv, k, opts);
    BuildEntryNormalizedOutputs(Kept(csv, k), k, csv.width, opts);
  }

  /** The `models` list after the given CSVs: one slot per CSV, in order, stopping at the first error. */
  function TrainAll(csvs: seq<Csv>, k: nat, opts: Options): (r: Result<seq<Option<ModelEntry>>, TrainError>)
    requires forall i :: 0 <= i < |csvs| ==> Rectangular(csvs[i].rows, csvs[i].width)
    ensures r.Success? ==> |r.value| == |csvs|
  {
    if |csvs| == 0 then Success([])
    else
      match TrainAll(csvs[..|csvs| - 1], k, opts)
      case Failure(e) => Failure(e)
      case Success(models) =>
        match TrainCsv(csvs[|csvs| - 1], k, opts)
        case Failure(e) => Failure(e)
        case Success(entry) => Success(models + [entry])
  }

  /** `train` fails iff some CSV lacks a joint column, or there are no joint columns and some CSV has rows. */
  lemma {:induction false} TrainAllFailure(csvs: seq<Csv>, k: nat, opts: Options)
    requires forall i :: 0 <= i < |csvs| ==> Rectangular(csvs[i].rows, csvs[i].width)
    ensures TrainAll(csvs, k, opts).Failure? <==>
              exists i :: 0 <= i < |csvs| && (csvs[i].width < k || (k == 0 && |csvs[i].rows| > 0))
    decreases |csvs|
  {
    if |csvs| > 0 {
      var front := csvs[..|csvs| - 1];
      var last := csvs[|csvs| - 1];
      TrainAllFailure(front, k, opts);
      TrainCsvOutcome(last, k, opts);
      assert forall i :: 0 <= i < |front| ==> csvs[i] == front[i];
      assert (exists i :: 0 <= i < |csvs| && (csvs[i].width < k || (k == 0 && |csvs[i].rows| > 0))) <==>
             (exists i :: 0 <= i < |front| && (front[i].width < k || (k == 0 && |front[i].rows| > 0))) ||
             last.width < k || (k == 0 && |last.rows| > 0);
    }
  }

  /**
   On success slot `i` of `models` is CSV `i`'s entry, so it pairs with
   `csv_files[i]` and hence with joint `i`.
   */
  lemma {:induction false} TrainAllAligned(csvs: seq<Csv>, k: nat, opts: Options)
    requires forall i :: 0 <= i < |csvs| ==> Rectangular(csvs[i].rows, csvs[i].width)
    requires TrainAll(csvs, k, opts).Success?
    ensures forall i :: 0 <= i < |csvs| ==>
              TrainCsv(csvs[i], k, opts).Success? && TrainAll(csvs, k, opts).value[i] == TrainCsv(csvs[i], k, opts).value
    decreases |csvs|
  {
    if |csvs| > 0 {
      var front := csvs[..|csvs| - 1];
      TrainAllAligned(front, k, opts);
      var models := TrainAll(front, k, opts).value;
      assert TrainAll(csvs, k, opts).value == models + [TrainCsv(csvs[|csvs| - 1], k, opts).value];
      assert forall i :: 0 <= i < |front| ==> csvs[i] == front[i];
    }
  }
}

=== FILE: writer.dfy ===
/**
 The training-data layout that `write` produces: the partition of the
 simplified weight table into per-joint vertex lists (`joint_map`) and the
 per-vertex joint list (`weight_map`), the per-frame CSV rows (joint world
 rotation and translation followed by one displacement per owned vertex),
 the matching CSV header, and the CSV file name derived from a joint path.
 */
module Writer {
  import opened Common
  import opened Strided

  // ---------------------------------------------------------------------------
  // joint_map / weight_map

  /** The position of the first strictly positive weight of a row: the `break` in the `enumerate` loop. */
  function FirstPositive(row: seq<real>): (r: Option<nat>)
    ensures r.Some? ==> r.value < |row| && row[r.value] > 0.0
    ensures r.Some? ==> forall j :: 0 <= j < r.value ==> row[j] <= 0.0
    ensures r.None? <==> forall j :: 0 <= j < |row| ==> row[j] <= 0.0
  {
    if |row| == 0 then None
    else if row[0] > 0.0 then Some(0)
    else
      match FirstPositive(row[1..])
      case None => None
      case Some(k) => Some(k + 1)
  }

  /** The joint list vertex `v` is appended to, if any. */
  function Owner(weights: seq<real>, numVerts: nat, stride: nat, v: nat): Option<nat>
    requires |weights| == numVerts * stride && v < numVerts
  {
    FirstPositive(Row(weights, numVerts, stride, v))
  }

  /** The vertices below `count` that carry some positive weight, in index order. */
  function WeightedVertices(weights: seq<real>, numVerts: nat, stride: nat, count: nat): seq<nat>
    requires |weights| == numVerts * stride && count <= numVerts
  {
    if count == 0 then []
    else
      WeightedVertices(weights, numVerts, stride, count - 1)
      + (if Owner(weights, numVerts, stride, count - 1).Some? then [count - 1] else [])
  }

  /** `weight_map` after the first `count` vertices: one owner per weighted vertex, in vertex order. */
  function Owners(weights: seq<real>, numVerts: nat, stride: nat, count: nat): seq<nat>
    requires |weights| == numVerts * stride && count <= numVerts
  {
    if count == 0 then []
    else
      Owners(weights, numVerts, stride, count - 1)
      + (match Owner(weights, numVerts, stride, count - 1)
         case Some(i) => [i]
         case None => [])
  }

  predicate StrictlyIncreasing(xs: seq<nat>) {
    forall a, b :: 0 <= a < b < |xs| ==> xs[a] < xs[b]
  }

  /** `joint_map[i]` after the first `count` vertices. */
  function JointList(weights: seq<real>, numVerts: nat, stride: nat, i: nat, count: nat): seq<nat>
    requires |weights| == numVerts * stride && count <= numVerts
  {
    if count == 0 then []
    else
      JointList(weights, numVerts, stride, i, count - 1)
      + (if Owner(weights, numVerts, stride, count - 1) == Some(i) then [count - 1] else [])
  }

  /** Every vertex's owner, in vertex order. */
  function OwnerTable(weights: seq<real>, numVerts: nat, stride: nat): (t: seq<Option<nat>>)
    requires |weights| == numVerts * stride
    ensures |t| == numVerts
    ensures forall v :: 0 <= v < numVerts ==> t[v] == Owner(weights, numVerts, stride, v)
  {
    seq(numVerts, v requires 0 <= v < numVerts => Owner(weights, numVerts, stride, v))
  }

  /** The positions before `count` at which `owners` holds `Some(i)`, in order. */
  function Positions(owners: seq<Option<nat>>, i: nat, count: nat): seq<nat>
    requires count <= |owners|
  {
    if count == 0 then []
    else Positions(owners, i, count - 1) + (if owners[count - 1] == Some(i) then [count - 1] else [])
  }

  lemma {:induction false} PositionsMembership(owners: seq<Option<nat>>, i: nat, count: nat)
    requires count <= |owners|
    ensures forall v: nat :: v in Positions(owners, i, count) <==> v < count && owners[v] == Some(i)
    ensures StrictlyIncreasing(Positions(owners, i, count))
    decreases count
  {
    if count > 0 {
      var front := Positions(owners, i, count - 1);
      var last := if owners[count - 1] == Some(i) then [count - 1] else [];
      PositionsMembership(owners, i, count - 1);
      forall v: nat
        ensures v in front + last <==> v < count && owners[v] == Some(i)
      {
        assert v in front + last <==> v in front || v in last;
      }
      AppendAboveIncreasing(front, last, count - 1);
    }
  }

  /** Building one list vertex by vertex is filtering the owner table. */
  lemma {:induction false} JointListPositions(weights: seq<real>, numVerts: nat, stride: nat, i: nat, count: nat)
    requires |weights| == numVerts * stride && count <= numVerts
    ensures JointList(weights, numVerts, stride, i, count) == Positions(OwnerTable(weights, numVerts, stride), i, count)
    decreases count
  {
    if count > 0 {
      JointListPositions(weights, numVerts, stride, i, count - 1);
    }
  }

  /** Influence `i`'s list holds exactly the vertices whose first positive weight is `i`, in increasing order. */
  lemma JointListMembership(weights: seq<real>, numVerts: nat, stride: nat, i: nat, count: nat)
    requires |weights| == numVerts * stride && count <= numVerts
    ensures forall v: nat :: v in JointList(weights, numVerts, stride, i, count) <==>
              v < count && Owner(weights, numVerts, stride, v) == Some(i)
    ensures StrictlyIncreasing(JointList(weights, numVerts, stride, i, count))
  {
    var owners := OwnerTable(weights, numVerts, stride);
    JointListPositions(weights, numVerts, stride, i, count);
    PositionsMembership(owners, i, count);
  }

  /** Appending values above every earlier entry keeps a list strictly increasing. */
  lemma AppendAboveIncreasing(front: seq<nat>, last: seq<nat>, bound: nat)
    requires StrictlyIncreasing(front) && forall v :: v in front ==> v < bound
    requires last == [] || last == [bound]
    ensures StrictlyIncreasing(front + last)
  {
    var s := front + last;
    forall a, b | 0 <= a < b < |s|
      ensures s[a] < s[b]
    {
      if b >= |front| {
        assert s[a] in front;
      }
    }
  }

  /** The inner `enumerate` loop: the index it breaks at, or the row's length when it never does. */
  method ScanFirstPositive(row: seq<real>) returns (i: nat)
    ensures i <= |row|
    ensures FirstPositive(row) == if i < |row| then Some(i) else None
  {
    i := 0;
    while i < |row| && row[i] <= 0.0
      invariant i <= |row|
      invariant forall j :: 0 <= j < i ==> row[j] <= 0.0
    {
      i := i + 1;
    }
  }

  /** Vertex `count` joins only its owner's list. */
  lemma JointListStep(weights: seq<real>, numVerts: nat, stride: nat, count: nat)
    requires |weights| == numVerts * stride && count < numVerts
    ensures forall i: nat :: JointList(weights, numVerts, stride, i, count + 1) ==
              JointList(weights, numVerts, stride, i, count)
              + (if Owner(weights, numVerts, stride, count) == Some(i) then [count] else [])
    ensures Owners(weights, numVerts, stride, count + 1) ==
            Owners(weights, numVerts, stride, count)
            + (match Owner(weights, numVerts, stride, count) case Some(i) => [i] case None => [])
  {
  }

  /**
   The loop at writer.py:76-87. `joint_map` gets one list per influence; each
   vertex joins the list of its first positively weighted influence and no
   other, and `weight_map` records that influence for every weighted vertex.
   */
  method BuildMaps(weights: seq<real>, numVerts: nat, stride: nat) returns (jointMap: seq<seq<nat>>, weightMap: seq<nat>)
    requires |weights| == numVerts * stride
    ensures |jointMap| == stride
    ensures forall i, v: nat :: 0 <= i < stride ==>
              (v in jointMap[i] <==> v < numVerts && Owner(weights, numVerts, stride, v) == Some(i))
    ensures forall i :: 0 <= i < stride ==> StrictlyIncreasing(jointMap[i])
    ensures weightMap == Owners(weights, numVerts, stride, numVerts)
  {
    jointMap := seq(stride, i => []);
    weightMap := [];
    var vtx := 0;
    while vtx < numVerts
      invariant vtx <= numVerts
      invariant |jointMap| == stride
      invariant forall i :: 0 <= i < stride ==> jointMap[i] == JointList(weights, numVerts, stride, i, vtx)
      invariant weightMap == Owners(weights, numVerts, stride, vtx)
    {
      var i := ScanFirstPositive(Row(weights, numVerts, stride, vtx));
      JointListStep(weights, numVerts, stride, vtx);
      if i < stride {
        weightMap := weightMap + [i];
        jointMap := jointMap[i := jointMap[i] + [vtx]];
      }
      vtx := vtx + 1;
    }
    forall i | 0 <= i < stride
      ensures forall v: nat :: v in jointMap[i] <==> v < numVerts && Owner(weights, numVerts, stride, v) == Some(i)
      ensures StrictlyIncreasing(jointMap[i])
    {
      JointListMembership(weights, numVerts, stride, i, numVerts);
    }
  }

  /** An owner is always one of the row's influences. */
  lemma OwnerInRange(weights: seq<real>, numVerts: nat, stride: nat, v: nat)
    requires |weights| == numVerts * stride && v < numVerts
    ensures Owner(weights, numVerts, stride, v).Some? ==> Owner(weights, numVerts, stride, v).value < stride
  {
  }

  /**
   `weight_map` has one entry per weighted vertex: entry `n` is the joint of
   the `n`-th vertex that has a positive weight, so vertices with no positive
   weight contribute nothing.
   */
  lemma {:induction false} OwnersMatchWeightedVertices(weights: seq<real>, numVerts: nat, stride: nat, count: nat)
    requires |weights| == numVerts * stride && count <= numVerts
    ensures |Owners(weights, numVerts, stride, count)| == |WeightedVertices(weights, numVerts, stride, count)|
    ensures forall n :: 0 <= n < |Owners(weights, numVerts, stride, count)| ==>
              WeightedVertices(weights, numVerts, stride, count)[n] < numVerts &&
              Owner(weights, numVerts, stride, WeightedVertices(weights, numVerts, stride, count)[n]) ==
              Some(Owners(weights, numVerts, stride, count)[n])
    decreases count
  {
    if count > 0 {
      OwnersMatchWeightedVertices(weights, numVerts, stride, count - 1);
    }
  }

  /** The positions before `count` at which `owners` holds some owner, in order. */
  function OwnedPositions(owners: seq<Option<nat>>, count: nat): seq<nat>
    requires count <= |owners|
  {
    if count == 0 then []
    else OwnedPositions(owners, count - 1) + (if owners[count - 1].Some? then [count - 1] else [])
  }

  lemma {:induction false} OwnedPositionsMembership(owners: seq<Option<nat>>, count: nat)
    requires count <= |owners|
    ensures forall v: nat :: v in OwnedPositions(owners, count) <==> v < count && owners[v].Some?
    ensures StrictlyIncreasing(OwnedPositions(owners, count))
    decreases count
  {
    if count > 0 {
      var front := OwnedPositions(owners, count - 1);
      var last := if owners[count - 1].Some? then [count - 1] else [];
      OwnedPositionsMembership(owners, count - 1);
      forall v: nat
        ensures v in front + last <==> v < count && owners[v].Some?
      {
        assert v in front + last <==> v in front || v in last;
      }
      AppendAboveIncreasing(front, last, count - 1);
    }
  }

  /** Collecting the weighted vertices one by one is filtering the owner table. */
  lemma {:induction false} WeightedVerticesPositions(weights: seq<real>, numVerts: nat, stride: nat, count: nat)
    requires |weights| == numVerts * stride && count <= numVerts
    ensures WeightedVertices(weights, numVerts, stride, count) == OwnedPositions(OwnerTable(weights, numVerts, stride), count)
    decreases count
  {
    if count > 0 {
      WeightedVerticesPositions(weights, numVerts, stride, count - 1);
    }
  }

  /** The weighted vertices are exactly those with a positive weight, listed in increasing order. */
  lemma WeightedVerticesMembership(weights: seq<real>, numVerts: nat, stride: nat, count: nat)
    requires |weights| == numVerts * stride && count <= numVerts
    ensures forall v: nat :: v in WeightedVertices(weights, numVerts, stride, count) <==>
              v < count && Owner(weights, numVerts, stride, v).Some?
    ensures StrictlyIncreasing(WeightedVertices(weights, numVerts, stride, count))
    ensures forall n :: 0 <= n < |WeightedVertices(weights, numVerts, stride, count)| ==>
              WeightedVertices(weights, numVerts, stride, count)[n] < count
  {
    var owners := OwnerTable(weights, numVerts, stride);
    var ws := WeightedVertices(weights, numVerts, stride, count);
    WeightedVerticesPositions(weights, numVerts, stride, count);
    OwnedPositionsMembership(owners, count);
    forall n | 0 <= n < |ws|
      ensures ws[n] < count
    {
      assert ws[n] in ws;
    }
  }

  // ---------------------------------------------------------------------------
  // Per-frame rows

  /** What `write` reads from the scene at a frame. */
  datatype Rig = Rig(
    rotation: (int, nat) -> Quat,     // world rotation of influence `j` at a frame
    translation: (int, nat) -> Vec3,  // world translation of influence `j` at a frame
    drivenPoint: (int, nat) -> Vec3,  // object-space driven mesh point of a vertex at a frame
    targetPoint: (int, nat) -> Vec3,  // object-space target mesh point of a vertex at a frame
    targetCount: nat)                 // number of target mesh points; `target_points[vtx]` raises past it

  /** `tpoint - mpoint` in the meshes' object space, as `getPoints()` returns them; no joint-local transform. */
  function Displacement(rig: Rig, frame: int, vtx: nat): Vec3 {
    rig.targetPoint(frame, vtx).Minus(rig.drivenPoint(frame, vtx))
  }

  /** The displacement components of the listed vertices, three per vertex, in list order. */
  function Displacements(rig: Rig, frame: int, verts: seq<nat>): (r: seq<real>)
    ensures |r| == 3 * |verts|
    ensures forall k, c :: 0 <= k < |verts| && 0 <= c < 3 ==>
              r[3 * k + c] == Displacement(rig, frame, verts[k]).Components()[c]
  {
    if |verts| == 0 then []
    else
      var front := Displacements(rig, frame, verts[..|verts| - 1]);
      var r := front + Displacement(rig, frame, verts[|verts| - 1]).Components();
      assert forall k :: 0 <= k < |verts| - 1 ==> verts[..|verts| - 1][k] == verts[k];
      r
  }

  /** The row written for influence `j` at a frame: rotation (x, y, z, w), translation, displacements. */
  function FrameRow(rig: Rig, frame: int, j: nat, verts: seq<nat>): (r: seq<real>)
    ensures |r| == 7 + 3 * |verts|
    ensures r[..4] == rig.rotation(frame, j).Components()
    ensures r[4..7] == rig.translation(frame, j).Components()
    ensures forall k, c :: 0 <= k < |verts| && 0 <= c < 3 ==>
              r[7 + 3 * k + c] == Displacement(rig, frame, verts[k]).Components()[c]
  {
    var head := rig.rotation(frame, j).Components() + rig.translation(frame, j).Components();
    var r := head + Displacements(rig, frame, verts);
    assert r[..4] == head[..4];
    assert r[4..7] == head[4..7];
    r
  }

  /** The rows of influence `j`: one per frame of `range(start, end + 1)`, in frame order. */
  function JointRows(rig: Rig, j: nat, verts: seq<nat>, start: int, end: int): (rows: seq<seq<real>>)
  {
    var frames := PyRange(start, end + 1, 1);
    seq(|frames|, n requires 0 <= n < |frames| => FrameRow(rig, frames[n], j, verts))
  }

  /**
   Every influence gets `end - start + 1` rows (none when `end < start`); row
   `n` belongs to frame `start + n` and has the header's width.
   */
  lemma JointRowsShape(rig: Rig, j: nat, verts: seq<nat>, start: int, end: int)
    ensures |JointRows(rig, j, verts, start, end)| == if start <= end then end - start + 1 else 0
    ensures forall n :: 0 <= n < |JointRows(rig, j, verts, start, end)| ==>
              JointRows(rig, j, verts, start, end)[n] == FrameRow(rig, start + n, j, verts)
    ensures forall n :: 0 <= n < |JointRows(rig, j, verts, start, end)| ==>
              |JointRows(rig, j, verts, start, end)[n]| == 7 + 3 * |verts|
  {
    UnitRangeLength(start, end + 1);
  }

  // ---------------------------------------------------------------------------
  // Header

  /** The seven input field names, also stored as `input_fields`. */
  function InputFields(): seq<string> {
    ["rx", "ry", "rz", "rw", "tx", "ty", "tz"]
  }

  /** `'vtx%s<axis>' % v`. */
  function VertexColumn(v: nat, axis: char): string {
    "vtx" + NatToString(v) + [axis]
  }

  /** `"xyz"[c]`. */
  function Axis(c: nat): char
    requires c < 3
  {
    if c == 0 then 'x' else if c == 1 then 'y' else 'z'
  }

  function VertexColumns(verts: seq<nat>): (h: seq<string>)
    ensures |h| == 3 * |verts|
    ensures forall k, c :: 0 <= k < |verts| && 0 <= c < 3 ==> h[3 * k + c] == VertexColumn(verts[k], Axis(c))
  {
    if |verts| == 0 then []
    else
      var v := verts[|verts| - 1];
      assert forall k :: 0 <= k < |verts| - 1 ==> verts[..|verts| - 1][k] == verts[k];
      VertexColumns(verts[..|verts| - 1]) + [VertexColumn(v, 'x'), VertexColumn(v, 'y'), VertexColumn(v, 'z')]
  }

  /** The CSV header for an influence owning `verts`. */
  function Header(verts: seq<nat>): (h: seq<string>)
    ensures |h| == 7 + 3 * |verts|
    ensures h[..7] == InputFields()
    ensures forall k, c :: 0 <= k < |verts| && 0 <= c < 3 ==> h[7 + 3 * k + c] == VertexColumn(verts[k], Axis(c))
  {
    var h := InputFields() + VertexColumns(verts);
    assert h[..7] == InputFields();
    h
  }

  /**
   The header and every row written for an influence line up column by
   column: same width, the seven transform fields first, and the column named
   `vtx<v><axis>` holding that axis of vertex `v`'s displacement.
   */
  lemma HeaderMatchesRow(rig: Rig, frame: int, j: nat, verts: seq<nat>)
    ensures |Header(verts)| == |FrameRow(rig, frame, j, verts)|
    ensures forall k, c :: 0 <= k < |verts| && 0 <= c < 3 ==>
              Header(verts)[7 + 3 * k + c] == VertexColumn(verts[k], Axis(c)) &&
              FrameRow(rig, frame, j, verts)[7 + 3 * k + c] == Displacement(rig, frame, verts[k]).Components()[c]
  {
  }

  lemma AxisInjective(c: nat, d: nat)
    requires c < 3 && d < 3
    ensures Axis(c) == Axis(d) ==> c == d
  {
  }

  /** Vertex column names name their vertex and axis uniquely. */
  lemma VertexColumnInjective(v: nat, a: char, w: nat, b: char)
    ensures VertexColumn(v, a) == VertexColumn(w, b) ==> v == w && a == b
  {
    if VertexColumn(v, a) == VertexColumn(w, b) {
      var s, t := VertexColumn(v, a), VertexColumn(w, b);
      assert |NatToString(v)| == |NatToString(w)|;
      assert NatToString(v) == s[3..|s| - 1];
      assert NatToString(w) == t[3..|t| - 1];
      NatToStringInjective(v, w);
      assert a == s[|s| - 1];
    }
  }

  /** Column `p` past the transform fields names one axis of one listed vertex. */
  lemma HeaderColumnAt(verts: seq<nat>, p: nat)
    requires 7 <= p < 7 + 3 * |verts|
    ensures (p - 7) / 3 < |verts|
    ensures Header(verts)[p] == VertexColumn(verts[(p - 7) / 3], Axis((p - 7) % 3))
    ensures |Header(verts)[p]| >= 5
  {
    var k, c := (p - 7) / 3, (p - 7) % 3;
    assert p == 7 + 3 * k + c;
  }

  /** Over distinct vertices the header has no repeated column name. */
  lemma HeaderColumnsDistinct(verts: seq<nat>)
    requires StrictlyIncreasing(verts)
    ensures forall a, b :: 0 <= a < b < |Header(verts)| ==> Header(verts)[a] != Header(verts)[b]
  {
    var h := Header(verts);
    forall a, b | 0 <= a < b < |h|
      ensures h[a] != h[b]
    {
      if b < 7 {
        assert h[a] == InputFields()[a] && h[b] == InputFields()[b];
      } else if a < 7 {
        HeaderColumnAt(verts, b);
        assert h[a] == InputFields()[a];
      } else {
        HeaderColumnsApart(verts, a, b);
      }
    }
  }

  lemma HeaderColumnsApart(verts: seq<nat>, a: nat, b: nat)
    requires StrictlyIncreasing(verts)
    requires 7 <= a < b < 7 + 3 * |verts|
    ensures Header(verts)[a] != Header(verts)[b]
  {
    HeaderColumnAt(verts, a);
    HeaderColumnAt(verts, b);
    var k, c := (a - 7) / 3, (a - 7) % 3;
    var l, d := (b - 7) / 3, (b - 7) % 3;
    VertexColumnInjective(verts[k], Axis(c), verts[l], Axis(d));
    AxisInjective(c, d);
    if k != l {
      assert k < l || l < k;
    }
  }

  // ---------------------------------------------------------------------------
  // File names

  /** `joint.replace('|', '_')`. */
  function ReplaceBars(s: string): (r: string)
    ensures |r| == |s|
    ensures forall i :: 0 <= i < |s| ==> r[i] == if s[i] == '|' then '_' else s[i]
  {
    if |s| == 0 then [] else [if s[0] == '|' then '_' else s[0]] + ReplaceBars(s[1..])
  }

  /** The CSV file name of a joint path, before it is joined to the output directory. */
  function CsvFileName(joint: string): (name: string)
    ensures |name| >= 4 && name[|name| - 4..] == ".csv"
  {
    var f := ReplaceBars(joint) + ".csv";
    if f[0] == '_' then f[1..] else f
  }

  /**
   The file name is the sanitised path with `.csv` appended and at most one
   leading underscore dropped: a full DAG path `|a|b` becomes `a_b.csv`.
   */
  lemma CsvFileNameShape(joint: string)
    ensures |joint| > 0 && (joint[0] == '|' || joint[0] == '_') ==>
              CsvFileName(joint) == ReplaceBars(joint)[1..] + ".csv"
    ensures (|joint| == 0 || (joint[0] != '|' && joint[0] != '_')) ==>
              CsvFileName(joint) == ReplaceBars(joint) + ".csv"
  {
    if |joint| > 0 {
      ConcatHead(ReplaceBars(joint), ".csv");
    }
  }

  lemma ConcatHead(r: string, t: string)
    requires |r| > 0
    ensures (r + t)[0] == r[0]
    ensures (r + t)[1..] == r[1..] + t
  {
  }

  /** Full paths whose names hold no underscore get distinct file names. */
  lemma CsvFileNameInjective(a: string, b: string)
    requires |a| > 0 && a[0] == '|' && |b| > 0 && b[0] == '|'
    requires forall i :: 0 <= i < |a| ==> a[i] != '_'
    requires forall i :: 0 <= i < |b| ==> b[i] != '_'
    ensures CsvFileName(a) == CsvFileName(b) ==> a == b
  {
    if CsvFileName(a) == CsvFileName(b) {
      CsvFileNameShape(a);
      CsvFileNameShape(b);
      var ra, rb := ReplaceBars(a), ReplaceBars(b);
      assert ra[1..] + ".csv" == rb[1..] + ".csv";
      assert |ra| == |rb|;
      assert ra[1..] == (ra[1..] + ".csv")[..|ra| - 1];
      assert rb[1..] == (rb[1..] + ".csv")[..|rb| - 1];
      forall i | 0 <= i < |a|
        ensures a[i] == b[i]
      {
        if i > 0 {
          assert ra[i] == ra[1..][i - 1] && rb[i] == rb[1..][i - 1];
        }
      }
    }
  }

  /** An underscore in a name and a path separator are not told apart: two joints can share a file. */
  lemma CsvFileNameCollision()
    ensures CsvFileName("|a_b") == CsvFileName("|a|b") == "a_b.csv"
  {
    assert ReplaceBars("|a_b") == "_a_b";
    assert ReplaceBars("|a|b") == "_a_b";
  }

  // ---------------------------------------------------------------------------
  // write

  datatype CsvFile = CsvFile(name: string, header: seq<string>, rows: seq<seq<real>>)

  /** The contents of `input_data.json`. */
  datatype MapData = MapData(
    jointNames: seq<string>,
    jointIndexes: seq<int>,
    weights: seq<nat>,
    csvFiles: seq<string>,
    jointMap: seq<seq<nat>>,
    inputFields: seq<string>)

  datatype TrainingData = TrainingData(files: seq<CsvFile>, mapData: MapData)

  datatype WriteError = IndexError

  /** Some vertex that a joint list names has no target point: `target_points[vtx]` is out of range. */
  predicate TargetMissesOwned(weights: seq<real>, numVerts: nat, stride: nat, targetCount: nat)
    requires |weights| == numVerts * stride
  {
    exists v: nat :: targetCount <= v < numVerts && Owner(weights, numVerts, stride, v).Some?
  }

  predicate Distinct(names: seq<string>) {
    forall a, b :: 0 <= a < b < |names| ==> names[a] != names[b]
  }

  /**
   The pure part of `write`: from the joint paths, the skin cluster's
   influence indexes and (simplified) weights, and the frame range, the CSV
   files in joint order and the map data. The per-influence lookups
   `joint_transforms[jidx]` and `joint_map[joints.index(joint)]` fail when
   the joint list and the influence count disagree; inside the frame loop,
   so only when there is a frame, `target_points[vtx]` fails for an owned
   vertex the target mesh does not have (`write` makes no vertex-count check).
   */
  method Write(joints: seq<string>, influenceIndexes: seq<int>, weights: seq<real>, numVerts: nat,
               rig: Rig, start: int, end: int) returns (r: Result<TrainingData, WriteError>)
    requires |weights| == numVerts * |influenceIndexes|
    requires Distinct(joints)
    ensures r.Failure? <==>
              || |joints| > |influenceIndexes|
              || (start <= end && (|joints| < |influenceIndexes| ||
                                   TargetMissesOwned(weights, numVerts, |influenceIndexes|, rig.targetCount)))
    ensures r.Success? ==>
              var d := r.value;
              && |d.files| == |joints|
              && d.mapData.jointNames == joints
              && d.mapData.jointIndexes == influenceIndexes
              && d.mapData.inputFields == InputFields()
              && |d.mapData.jointMap| == |influenceIndexes|
              && (forall i, v: nat :: 0 <= i < |influenceIndexes| ==>
                    (v in d.mapData.jointMap[i] <==> v < numVerts && Owner(weights, numVerts, |influenceIndexes|, v) == Some(i)))
              && (forall i :: 0 <= i < |influenceIndexes| ==> StrictlyIncreasing(d.mapData.jointMap[i]))
              && d.mapData.weights == Owners(weights, numVerts, |influenceIndexes|, numVerts)
              && |d.mapData.csvFiles| == |joints|
              && forall j :: 0 <= j < |joints| ==>
                   && d.mapData.csvFiles[j] == d.files[j].name == CsvFileName(joints[j])
                   && d.files[j].header == Header(d.mapData.jointMap[j])
                   && d.files[j].rows == JointRows(rig, j, d.mapData.jointMap[j], start, end)
  {
    var stride := |influenceIndexes|;
    var jointMap, weightMap := BuildMaps(weights, numVerts, stride);
    if |joints| > stride || (start <= end && (|joints| < stride || TargetMissesOwned(weights, numVerts, stride, rig.targetCount))) {
      return Failure(IndexError);
    }
    var files := seq(|joints|, j requires 0 <= j < |joints| =>
      CsvFile(CsvFileName(joints[j]), Header(jointMap[j]), JointRows(rig, j, jointMap[j], start, end)));
    var names := seq(|joints|, j requires 0 <= j < |joints| => files[j].name);
    r := Success(TrainingData(files, MapData(joints, influenceIndexes, weightMap, names, jointMap, InputFields())));
  }
}
